=== FILE: README.md ===
# pimon, modelled in Dafny

pimon is a small Raspberry Pi system monitor. It publishes metrics over MQTT and announces them to
Home Assistant through MQTT discovery. At start-up it loads a YAML configuration over compiled-in
defaults (`load_config`) and derives the base topic from the host name. It then runs a timer
cycle (`publish`): the cycle first starts the timer of the next cycle, then probes the metrics the
`messages` section enables into an insertion-ordered snapshot, and publishes the snapshot. It
publishes either one message per metric (`publish_individual`) or one bulk message on
`<base>/status` (`publish_bulk`). The bulk message is JSON or a CSV line. A `KeyError` raised
after the next timer has been started skips the rest of the cycle; a missing `loop_time` raises
out of `publish` before the timer exists. On connecting (`mqtt_on_connect`) the monitor passes an
"offline" last will to `will_set`, for the client's next CONNECT, and announces "online". When `discovery_messages` is truthy and
`bulk.group_messages` is not, it then publishes a discovery descriptor (`config_json`) for every
option of `messages` that is switched on. On a signal (`on_exit`) it announces "offline"
and cancels the timer.

The model is split into modules:

- `Dicts` (dicts.dfy): Python's insertion-ordered dicts, as sequences of entries. Assignment
  updates a present key in place and appends a new one. `{**a, **b}` is a fold of assignments.
- `Values` (values.dfy): loaded YAML values, Python's exceptions, truthiness, subscripting,
  `len`/iteration and the argument check of `time.sleep`.
- `Text` (text.dfy): `str.replace`, `str.split` and `str.join`.
- `Config` (config.dfy): `load_config`, the lookups `config[...]`, and the module-level base topic.
- `Collector` (collector.dfy): the collection half of `publish`. The function `Collection`
  describes it as a table of checks (`Plan`). The method `Collect` makes the checks one after
  another, as the source does. Every probe is one input function. A probe returns a reading or
  raises.
- `Messages` (messages.dfy): messages with their topic, payload, QoS and retain flag, and traces
  (the messages an operation sent, and the exception that ended it, if any).
- `Discovery` (discovery.dfy): `config_json` and the discovery topic.
- `Publishing` (publishing.dfy): what each operation sends, as functions of the configuration,
  with the lemmas about them.
- `Pimon` (monitor.dfy): the class `Monitor`. It holds the state the source keeps in globals
  and in the MQTT client: the last will, the timer of the latest cycle, and the log of
  published messages. Its methods are the callbacks, and each one is proved against the
  corresponding `Publishing` function.

Every `config[...]` lookup is made where the source makes it, with one exception: the collection
looks up `config["messages"]` once, while the source repeats that lookup in each of its thirteen
checks. The configuration never changes after start-up, so every repetition gives the same
result. The modelled lookups include the
`time.sleep(config["sleep_time"])` after each publish, which can raise after a message has gone
out. The publishing functions receive the three per-message lookups (QoS, retain, pause) as one
`Lookups` value. The configuration is never changed after start-up, so every iteration of a loop
sees the same results.

The discovery names are modelled as the source writes them. `config_json` recognises `cpuload`,
`cputemp` and `uptime_days`. The `messages` options it is called with are named `cpu_load`,
`cpu_temp` and `uptime`. So those options are announced with an empty payload, and the
`uptime_days` descriptor is asked for by no default option (`Discovery.OptionNamesUnknown`); a
`messages` section of the user's own with an `uptime_days` option does get it.

## Model

| member | source | states |
|---|---|---|
| Dicts.Set | pimon.py:359 | `d[k] = v`; it has no contract of its own and is characterised by `Dicts.SetGet` and `Dicts.SetKeys` |
| Dicts.Merge | pimon.py:74 | `{**base, **override}`; it has no contract of its own and is characterised by `Dicts.MergeGet` and `Dicts.MergeKeys` |
| Dicts.SetGet | pimon.py:359 | after `d[k] = v`, `k` maps to `v` and every other key keeps its value |
| Dicts.SetKeys | pimon.py:359 | assignment keeps the key order: a present key stays in its place, a new key goes last |
| Dicts.MergeGet | pimon.py:74 | `{**base, **override}` gives each key the override's value when the override has it, the base's value otherwise; nothing is merged below the top level |
| Dicts.MergeKeys | pimon.py:74 | the merged dict lists the base's keys in their order, then the override's new keys in first-occurrence order |
| Dicts.DedupFromFacts | pimon.py:357-385 | inserting keys never duplicates or loses one and keeps the earlier keys first |
| Values.Index | pimon.py:358 | `v[k]` succeeds exactly when `v` is a dict holding `k`; otherwise it raises `KeyError(k)` on a dict and `TypeError` on anything else |
| Values.Iterate | pimon.py:364-365 | `len`/`for` work on lists (their items), strings (their one-character strings, in order) and dicts (their keys) and raise `TypeError` on anything else; the items are empty exactly when the value is falsy |
| Values.Truthy | pimon.py:358-385 | Python's truth value, used by `if` at lines 290, 293, 333, 358-385 and 388; it has no contract of its own and is characterised by `Values.Iterate` (no items exactly when falsy) and by the `Collector` and `Publishing` lemmas that branch on it |
| Values.SleepError | pimon.py:328 | `time.sleep` raises `TypeError` exactly for a non-number (booleans count as numbers), `OverflowError` exactly for a number whose count of nanoseconds does not fit a signed 64-bit integer, `ValueError` exactly for a negative number that fits, and nothing otherwise |
| Values.HugeSleepOverflows | pimon.py:328 | a `sleep_time` of 10^20 seconds raises `OverflowError`, while 9223372036 seconds and half a second are accepted |
| Config.Defaults | pimon.py:40-72 | the compiled-in defaults, in source order; `Config.DefaultKeys` and `Config.DefaultTopicPrefix` state their keys and topic prefix |
| Config.LoadConfig | pimon.py:35-75 | loading succeeds exactly when the parsed document is a mapping |
| Config.LoadConfigShallow | pimon.py:40-75 | each top-level key of the configuration has the document's value when the document has the key, and the default otherwise |
| Config.LoadConfigKeyOrder | pimon.py:74 | the configuration lists the default keys first, in their order, then the document's new keys |
| Config.DefaultKeys | pimon.py:40-72 | the defaults have exactly the keys mqtt, bulk, loop_time, sleep_time, discovery_messages and messages, each once |
| Config.LoadConfigHasDefaults | pimon.py:40-75 | for a mapping document, every default top-level key can be looked up in the loaded configuration |
| Config.OverrideSectionDropsDefaults | pimon.py:57-74 | a document that sets only `messages.cpu_load` replaces the whole default `messages` section by that one flag, so every other default flag is gone and the lookup of `messages.cpu_temp` raises `KeyError` |
| Config.Lookup | pimon.py:352 | `config[key]` succeeds exactly when the key is present, and then gives the value stored under it; otherwise it raises `KeyError(key)` |
| Config.Path | pimon.py:279 | `config[section][key]` succeeds exactly when the section is present, is a dict and holds the key, and then gives the key's value; otherwise `KeyError(section)`, `KeyError(key)`, or `TypeError` for a section that is not a dict |
| Config.Qos | pimon.py:326 | `config["mqtt"]["qos"]`, as used at lines 279, 285, 297, 312, 326, 337 and 347; no contract of its own, characterised by `Config.Path` |
| Config.Retain | pimon.py:327 | `config["mqtt"]["retain"]`, as used at lines 327, 338 and 348; no contract of its own, characterised by `Config.Path` |
| Config.SleepTime | pimon.py:328 | the pause succeeds exactly when `sleep_time` is present and `time.sleep` accepts it; it raises `KeyError` exactly when `sleep_time` is missing, and otherwise the error `time.sleep` raises for that value |
| Text.ReplaceAll | pimon.py:402 | `s.replace(pat, rep)`, left to right without overlaps; it has no contract of its own and is characterised by the `Text` lemmas below |
| Text.Join | pimon.py:343 | `sep.join(parts)`; no contract of its own, characterised by `Text.SplitJoinRoundTrip`, `Text.JoinSplitRoundTrip` and `Publishing.CsvExample` |
| Text.ReplaceIsSplitJoin | pimon.py:402 | `s.replace(pat, rep)` equals `rep.join(s.split(pat))` |
| Text.ReplaceBySelf | pimon.py:402 | replacing a pattern by itself leaves the string unchanged |
| Text.ReplaceWithoutToken | pimon.py:402 | a string without the pattern is left unchanged by `replace` |
| Text.SplitJoinRoundTrip | pimon.py:402 | joining the pieces of a split with the same separator gives back the string |
| Text.JoinSplitRoundTrip | pimon.py:341-343 | splitting a join gives back the pieces when, for every piece but the last, the separator first occurs in that piece followed by the separator at the appended separator itself, and the last piece does not contain the separator |
| Config.BaseTopic | pimon.py:401-402 | the base topic can be derived exactly when `mqtt.topic_prefix` can be looked up and is a string; a missing key raises `KeyError`, a non-string prefix `AttributeError` |
| Config.Startup | pimon.py:397-402 | start-up succeeds exactly when the configuration loads and the base topic can be derived from it, and keeps both |
| Config.BaseTopicWithoutToken | pimon.py:400-402 | a topic prefix without `$HOSTNAME` is the base topic unchanged |
| Config.BaseTopicPieces | pimon.py:400-402 | the base topic is the prefix's pieces between placeholders, joined by the host name, and those pieces joined by the placeholder are the prefix again |
| Config.DefaultTopicPrefix | pimon.py:46 | the default topic prefix is `pimon/$HOSTNAME` |
| Config.DefaultBaseTopic | pimon.py:400-402 | with the default prefix the base topic is `pimon/` followed by the host name |
| Config.StartupWithoutMqtt | pimon.py:397-402 | a mapping document without an `mqtt` section loads, and the base topic is `pimon/<hostname>` |
| Collector.Plan | pimon.py:357-385 | the thirteen checks of `publish` in source order, with their flag, key, probe and argument; `Collector.AllEnabledKeys` states the key order they give |
| Collector.Collection | pimon.py:357-385 | the collection half of `publish` as the checks of `Plan` run in order; it has no contract of its own and is characterised by `Collector.CollectionContents`, `Collector.CollectionReliable` and `Collector.EverythingOnOrder`, and `Collector.Collect` is proved against it |
| Collector.LastWriteAppend | pimon.py:357-385 | of two runs of assignments, the later run's last write to a key wins |
| Collector.SampleEach | pimon.py:365-369 | the loop `for item in ...: data[item] = probe(item)`; characterised by `Collector.SampleEachFacts` and `Collector.SampleEachReliable`, and `Collector.CollectEach` is proved equal to it |
| Collector.RunStep | pimon.py:358-369 | one check of `publish`: a flag check or a list check; characterised by `Collector.RunStepFacts` |
| Collector.EnabledKeys | pimon.py:357-385 | the keys the checks assign, in check order, found without probing; characterised by `Collector.CollectionContents`, `Collector.CollectionReliable` and `Collector.AllEnabledKeys` |
| Collector.SampleEachFacts | pimon.py:364-369 | a list option adds its items as keys in order, and each listed key then holds the probe's reading for that item |
| Collector.SampleEachReliable | pimon.py:364-369 | with probes that never raise, a list option's loop always succeeds |
| Collector.RunStepFacts | pimon.py:358-385 | one successful check adds exactly its keys, in order, and each of them holds the reading its last assignment probed; other keys are unchanged |
| Collector.RunPlanFacts | pimon.py:357-385 | a successful sequence of checks adds exactly the keys of its assignments, in first-assignment order, and each key holds the reading of its last assignment |
| Collector.RunPlanReliable | pimon.py:357-385 | with probes that never raise, the checks fail exactly when a lookup in `messages` fails, and with that lookup's error |
| Collector.CollectionContents | pimon.py:357-385 | a snapshot's keys are the enabled metric keys in first-assignment order, without duplicates, and each holds the reading of its last probe |
| Collector.CollectionReliable | pimon.py:357-385 | with probes that never raise, collection fails exactly when the enabled keys cannot be computed, and with the same error |
| Collector.AllOnWrites | pimon.py:357-385 | when every check finds its option on, the checks assign exactly one key per flag and one per listed path or device, in check order |
| Collector.AllEnabledKeys | pimon.py:357-385 | with every flag of `messages` set and the lists `disks` and `drives`, the enabled names are `cpu_load`, `cpu_temp`, `diskusage`, the disks, the drives, `voltage`, `sys_clock_speed`, `swap`, `memory`, `uptime_days`, `wifi_signal`, `wifi_signal_dbm`, `timestamp` |
| Collector.EverythingOnOrder | pimon.py:357-385 | with every metric on, the disk `/mnt/data`, the drive `/dev/sda` and probes that never raise, the snapshot holds exactly those thirteen names in that order |
| Collector.Collect | pimon.py:357-385 | the straight-line checks produce exactly the snapshot (or the error) of the table of checks `Plan` |
| Collector.CollectCpuAndDisks | pimon.py:358-369 | the CPU load, CPU temperature, root disk, further disks and drive temperature checks do what the first five entries of `Plan` do |
| Collector.CollectCpuClock | pimon.py:370-373 | the voltage and clock speed checks do what the next two entries of `Plan` do |
| Collector.CollectSystem | pimon.py:374-379 | the swap, memory and uptime checks do what the next three entries of `Plan` do; `uptime` stores under `uptime_days` |
| Collector.CollectOptional | pimon.py:380-385 | the Wi-Fi and timestamp checks do what the last three entries of `Plan` do |
| Collector.CollectFlag | pimon.py:358-359 | a flag check probes and assigns exactly when the flag is truthy, and raises when the flag cannot be read |
| Collector.CollectEach | pimon.py:364-366 | a list check probes and assigns each listed path in order, and stops at the first probe that raises |
| Discovery.LookOf | pimon.py:223-267 | exactly the eleven names of the if/elif chain get an icon, a caption and a unit |
| Discovery.DeviceOf | pimon.py:212-218 | the descriptor's device is identified and named by the host name |
| Discovery.ConfigJson | pimon.py:202-269 | an unknown name gives the empty string; a known one gives a descriptor whose state topic is `<base>/<name>`, whose unique id is `<hostname>_<name>`, whose name starts with the host name, and whose icon, name suffix and unit are that name's entry in the chain |
| Discovery.DiscoveryTopic | pimon.py:295 | the topic `homeassistant/sensor/pimon/<hostname>_<item>/config`; it has no contract of its own and is characterised by `Discovery.DiscoveryTopicInjective` |
| Discovery.DiscoveryTopicInjective | pimon.py:295 | distinct options of one host are announced on distinct topics |
| Discovery.OptionNamesUnknown | pimon.py:223-267 | the options `cpu_load`, `cpu_temp`, `uptime`, `other_diskusage` and `smart_temp` get the empty payload, while `uptime_days` gets a descriptor |
| Publishing.Csv | pimon.py:341-343 | the CSV line of the bulk message; it has no contract of its own and is characterised by `Publishing.CsvExample` and `Publishing.CsvRoundTrip` |
| Publishing.PostMetric | pimon.py:323-328 | one iteration of `publish_individual`; it has no contract of its own and is characterised by `Publishing.IndividualShape` and `Publishing.IndividualOutcome` |
| Publishing.IndividualTrace | pimon.py:320-328 | what `publish_individual` sends and raises; characterised by `Publishing.IndividualShape`, `Publishing.IndividualOutcome` and `Publishing.IndividualTopicsDistinct` |
| Publishing.BulkTrace | pimon.py:331-348 | what `publish_bulk` sends and raises; characterised by `Publishing.BulkShape` |
| Publishing.Shown | pimon.py:292-293 | the options the `if show:` filter lets through, in order; characterised by `Publishing.DiscoveryShape` and `Publishing.DiscoveryOutcome` |
| Publishing.AnnounceOption | pimon.py:293-300 | one iteration of the discovery loop; characterised by `Publishing.AnnounceWhenFine` and `Publishing.DiscoveryOutcome` |
| Publishing.DiscoveryTrace | pimon.py:292-300 | what the discovery loop sends and raises; characterised by `Publishing.DiscoveryShape` and `Publishing.DiscoveryOutcome` |
| Publishing.Announcements | pimon.py:290-300 | the discovery part of `mqtt_on_connect`; characterised by `Publishing.ConnectWithoutDiscovery` and `Publishing.ConnectWithDiscovery` |
| Publishing.ConnectTrace | pimon.py:272-300 | `mqtt_on_connect`; characterised by `Publishing.ConnectPresence`, `Publishing.ConnectWithoutDiscovery` and `Publishing.ConnectWithDiscovery` |
| Publishing.ExitTrace | pimon.py:309-314 | the "offline" message of `on_exit`; characterised by `Publishing.ExitSendsWill` |
| Publishing.CycleTrace | pimon.py:355-391 | the guarded body of `publish`; characterised by `Publishing.CollectionFailureSendsNothing`, `Publishing.KeyErrorBeforeSending`, `Publishing.CompletedIndividualCycle` and `Publishing.CompletedBulkCycle` |
| Publishing.RunCycle | pimon.py:350-394 | one timer cycle of `publish`; characterised by `Publishing.CycleReschedules`, `Publishing.SkippedSendsNothing`, `Publishing.CompletedIndividualCycle` and `Publishing.CompletedBulkCycle` |
| Publishing.Texts | pimon.py:341-342 | the CSV values are the readings' `str()` texts, one per metric, in snapshot order |
| Publishing.IndividualShape | pimon.py:320-328 | individual publishing sends at most one message per metric, in snapshot order, each on `<base>/<metric>` with that metric's reading and the configured QoS and retain |
| Publishing.IndividualOutcome | pimon.py:320-328 | individual publishing raises exactly when the snapshot is not empty and a lookup fails, with the first failing lookup's error and with one message sent when only the pause fails; without an error every metric is sent |
| Publishing.IndividualProgress | pimon.py:322-328 | each loop step either adds its message to those already sent or ends the loop with its error |
| Publishing.IndividualTopicsDistinct | pimon.py:322-324 | metrics with distinct names are published on distinct topics |
| Publishing.BulkShape | pimon.py:331-348 | bulk publishing sends one message on `<base>/status` exactly when the format, QoS and retain lookups succeed: the snapshot as JSON when `format_as_json` is truthy, its CSV line otherwise |
| Publishing.CsvExample | pimon.py:341-343 | two readings `12.3` and `40` give the CSV line `12.3, 40` |
| Publishing.CsvRoundTrip | pimon.py:341-343 | a CSV line of a non-empty snapshot whose texts contain no `, ` splits back into those texts |
| Publishing.AnnounceWhenFine | pimon.py:293-300 | with QoS and pause available, an option is announced exactly when its value is truthy |
| Publishing.DiscoveryShape | pimon.py:292-300 | with QoS and pause available, discovery sends one retained message per shown option, in order, on its discovery topic, carrying `config_json` of its name |
| Publishing.DiscoveryOutcome | pimon.py:292-300 | for any lookups, discovery raises exactly when some option is shown and the QoS or pause lookup fails, with the QoS error first; it then has sent the first shown option's announcement exactly when QoS was read, and otherwise it sends one message per shown option |
| Publishing.DiscoveryProgress | pimon.py:292-300 | each discovery loop step either adds its message to those already sent or ends the loop with its error |
| Publishing.ConnectPresence | pimon.py:275-287 | connecting sets the "offline" will, retained and with the configured QoS, and first sends a retained "online" on the base topic exactly when QoS can be read |
| Publishing.ConnectWithoutDiscovery | pimon.py:290 | with discovery off, or messages grouped, connecting sends only "online" |
| Publishing.ConnectWithDiscovery | pimon.py:290-300 | with discovery on and messages not grouped, connecting sends "online" followed by one discovery message per shown option |
| Publishing.ExitSendsWill | pimon.py:309-314 | on exit, the monitor publishes exactly the message connecting passed to `will_set`, and raises where connecting could not set one |
| Publishing.Settle | pimon.py:393-394 | a cycle completes without an error, is skipped on a `KeyError`, and leaves `publish` with any other error |
| Publishing.CycleReschedules | pimon.py:351-353 | for a loaded configuration, every cycle starts the next cycle's timer with `loop_time` |
| Publishing.CollectionFailureSendsNothing | pimon.py:355-394 | a cycle whose collection fails sends nothing and ends with the collection's error |
| Publishing.KeyErrorBeforeSending | pimon.py:355-394 | when `sleep_time` is present, a cycle body that raises `KeyError` has sent nothing |
| Publishing.SkippedSendsNothing | pimon.py:350-394 | for a loaded configuration, a skipped cycle sent nothing |
| Publishing.CompletedIndividualCycle | pimon.py:350-391 | a completed ungrouped cycle started the timer and sent exactly one message per collected metric |
| Publishing.CompletedBulkCycle | pimon.py:350-391 | a completed grouped cycle started the timer with `loop_time` and sent exactly the one bulk message of the snapshot, on `<base>/status` |
| Pimon.Monitor.constructor | pimon.py:397-402 | start-up keeps the loaded configuration and the derived base topic, with nothing sent, no will and no timer |
| Pimon.Monitor.OnConnect | pimon.py:272-300 | the log grows by exactly the connect messages, the will is set when QoS can be read, and the timer is untouched |
| Pimon.Monitor.AnnounceAll | pimon.py:290-292 | the log grows by exactly the discovery messages the conditions allow |
| Pimon.Monitor.Announce | pimon.py:292-300 | the loop sends exactly what the discovery trace of the options sends, and raises its error |
| Pimon.Monitor.AnnounceItem | pimon.py:293-300 | one option sends exactly what its discovery step sends |
| Pimon.Monitor.PublishIndividual | pimon.py:320-328 | the loop sends exactly what individual publishing of the snapshot sends, and raises its error |
| Pimon.Monitor.SendMetric | pimon.py:323-328 | one metric sends exactly what its publishing step sends |
| Pimon.Monitor.PublishBulk | pimon.py:331-348 | the log grows by exactly the bulk message, if any |
| Pimon.Monitor.Publish | pimon.py:350-394 | the timer is replaced by the new cycle's timer, the log grows by exactly the cycle's messages, and the outcome is the cycle's |
| Pimon.Monitor.PublishCollected | pimon.py:355-391 | the log grows by exactly what the guarded body of the cycle sends |
| Pimon.Monitor.OnExit | pimon.py:303-317 | the log grows by the "offline" message when QoS can be read; then the latest timer is cancelled, or `NameError` is raised before the first cycle |

## Left out

- The metric probes (`check_cpu_load`, `check_diskusage`, `check_smart_temp`, ...) are not part of this model. They are one input function, which returns a reading or raises an exception other than `KeyError`.
- The host-description probes used by `config_json` (`check_model_name`, `get_manufacturer`, `get_os`) are an input value, assumed not to raise.
- YAML parsing is out of scope: the model starts from the parsed document. Keys are strings, and list items are strings.
- `json.dumps` and the MQTT client's encoding of payloads to bytes are out of scope: a payload is kept as the value it encodes. A reading `json.dumps` cannot encode is therefore not modelled either: `check_voltage` returns bytes (pimon.py:128-129), so with `voltage` on and both `bulk.group_messages` and `bulk.format_as_json` truthy, the `json.dumps(data)` of pimon.py:336 raises `TypeError` out of `publish`, which the model does not show.
- Pimon.Monitor.will records the `will_set` call only. `mqtt_on_connect` runs after `client.connect` (pimon.py:409), and a will set then is sent only with the client's next CONNECT, so the broker holds no last will during the first session; the model does not distinguish sessions.
- The MQTT client's own checks are out of scope: a QoS or retain flag is passed on as configured, and the client is not modelled as rejecting it.
- Threads are out of scope. A timer firing and running the next cycle is the caller calling `Publish` again. `timer_thread.join()` and `sys.exit(0)` at the end of `on_exit` are not modelled. Signal delivery, `client.connect`, `username_pw_set` and `loop_forever` are not modelled either.
- Values.SleepError: a float sleep length is an exact real, so NaN (`ValueError`) and the infinities (`OverflowError`) cannot be given, and the range check ignores how the product with 10^9 rounds in double precision.
- `print` output and the real-time length of `time.sleep` are not modelled; only whether the sleep raises.
- Exceptions raised inside the connect and exit callbacks are returned to the caller. The model does not capture what the MQTT client or the interpreter then does with them.
- Argument parsing and `socket.gethostname()` are out of scope: the host name is a parameter.

=== FILE: collector.dfy ===
/** One cycle's collection of metric values (the first half of `publish`): a fixed
    sequence of checks on `config["messages"]` fills an insertion-ordered dict of
    metric name to probe reading. The probes themselves are inputs. */
module Collector {
  import opened Dicts
  import opened Values
  import opened Config

  /** The metric probes of the monitor (`check_cpu_load`, `check_diskusage`, ...). */
  datatype Sensor =
    | CpuLoad | CpuTemp | DiskUsage | SmartTemp | Voltage | SysClockSpeed
    | Swap | Memory | Uptime | WifiSignal | WifiSignalDbm | Timestamp

  /** A probe's value, carried with its Python `str()` form (the CSV payload uses it). */
  datatype Reading = Reading(text: string)

  /** What one probe call does: return a reading, or raise. */
  datatype Probed = Read(reading: Reading) | Raised

  /** All probes as one input: the sensor and its path or device argument ("" for none). */
  type Probe = (Sensor, string) -> Probed

  /** The `data` dict of one cycle: metric name to reading, in insertion order. */
  type Snapshot = Assoc<Reading>

  /** One check of `publish`: a boolean flag that adds one fixed key, or a list-valued option
      that adds one key per listed path or device, named after the path or device itself. */
  datatype Step =
    | Flag(flag: string, key: string, sensor: Sensor, arg: string)
    | Each(flag: string, sensor: Sensor)

  /** The checks of `publish`, in the order it makes them. The flag `uptime` adds the key
      `uptime_days`; the root disk is probed at "/". */
  const Plan: seq<Step> := [
    Flag("cpu_load", "cpu_load", CpuLoad, ""),
    Flag("cpu_temp", "cpu_temp", CpuTemp, ""),
    Flag("diskusage", "diskusage", DiskUsage, "/"),
    Each("other_diskusage", DiskUsage),
    Each("smart_temp", SmartTemp),
    Flag("voltage", "voltage", Voltage, ""),
    Flag("sys_clock_speed", "sys_clock_speed", SysClockSpeed, ""),
    Flag("swap", "swap", Swap, ""),
    Flag("memory", "memory", Memory, ""),
    Flag("uptime", "uptime_days", Uptime, ""),
    Flag("wifi_signal", "wifi_signal", WifiSignal, ""),
    Flag("wifi_signal_dbm", "wifi_signal_dbm", WifiSignalDbm, ""),
    Flag("timestamp", "timestamp", Timestamp, "")
  ]

  /** `data[key] = probe(sensor, arg)`. */
  function Sample(probe: Probe, sensor: Sensor, arg: string, key: string, data: Snapshot): Result<Snapshot>
  {
    match probe(sensor, arg)
    case Read(r) => Success(Set(data, key, r))
    case Raised => Failure(ProbeRaised)
  }

  /** `for item in items: data[item] = probe(sensor, item)`. */
  function SampleEach(probe: Probe, sensor: Sensor, items: seq<string>, data: Snapshot): Result<Snapshot>
    decreases |items|
  {
    if items == [] then Success(data)
    else
      var next :- Sample(probe, sensor, items[0], items[0], data);
      SampleEach(probe, sensor, items[1..], next)
  }

  /** One check against the `messages` section. */
  function RunStep(messages: Value, step: Step, probe: Probe, data: Snapshot): Result<Snapshot>
  {
    match step
    case Flag(flag, key, sensor, arg) =>
      var on :- Index(messages, flag);
      if Truthy(on) then Sample(probe, sensor, arg, key, data) else Success(data)
    case Each(flag, sensor) =>
      var option :- Index(messages, flag);
      var items :- Iterate(option);
      SampleEach(probe, sensor, items, data)
  }

  /** The checks `steps` made in order; the first error ends the collection. */
  function RunPlan(messages: Value, steps: seq<Step>, probe: Probe, data: Snapshot): Result<Snapshot>
    decreases |steps|
  {
    if steps == [] then Success(data)
    else
      var next :- RunStep(messages, steps[0], probe, data);
      RunPlan(messages, steps[1..], probe, next)
  }

  /** The snapshot of one cycle, or the error that ends it. */
  function Collection(config: Configuration, probe: Probe): Result<Snapshot>
  {
    var messages :- Lookup(config, "messages");
    RunPlan(messages, Plan, probe, [])
  }

  /** One assignment `data[key] = probe(sensor, arg)` that a check makes. */
  datatype Write = Write(key: string, sensor: Sensor, arg: string)

  function EachWrites(items: seq<string>, sensor: Sensor): (ws: seq<Write>)
    ensures |ws| == |items|
  {
    if items == [] then [] else [Write(items[0], sensor, items[0])] + EachWrites(items[1..], sensor)
  }

  /** The assignments one check makes, in order, found without running any probe. */
  function StepWrites(messages: Value, step: Step): Result<seq<Write>>
  {
    match step
    case Flag(flag, key, sensor, arg) =>
      var on :- Index(messages, flag);
      Success(if Truthy(on) then [Write(key, sensor, arg)] else [])
    case Each(flag, sensor) =>
      var option :- Index(messages, flag);
      var items :- Iterate(option);
      Success(EachWrites(items, sensor))
  }

  function PlanWrites(messages: Value, steps: seq<Step>): Result<seq<Write>>
    decreases |steps|
  {
    if steps == [] then Success([])
    else
      var first :- StepWrites(messages, steps[0]);
      var rest :- PlanWrites(messages, steps[1..]);
      Success(first + rest)
  }

  function WriteKeys(ws: seq<Write>): (ks: seq<string>)
    ensures |ks| == |ws|
  {
    if ws == [] then [] else [ws[0].key] + WriteKeys(ws[1..])
  }

  /** The last of `ws` that assigns `key`: the one whose value the dict keeps. */
  function LastWrite(ws: seq<Write>, key: string): Option<Write>
  {
    if ws == [] then None
    else match LastWrite(ws[1..], key)
      case Some(w) => Some(w)
      case None => if ws[0].key == key then Some(ws[0]) else None
  }

  /** The metric names the configuration enables, in the order `publish` checks them. */
  function EnabledKeys(config: Configuration): Result<seq<string>>
  {
    var messages :- Lookup(config, "messages");
    var ws :- PlanWrites(messages, Plan);
    Success(WriteKeys(ws))
  }

  /** Every probe returns a reading. */
  ghost predicate Reliable(probe: Probe)
  {
    forall s, a :: probe(s, a).Read?
  }

  /** What `data` holds under `key` after the assignments `ws` were made on `before`. */
  ghost predicate HoldsAfter(data: Snapshot, before: Snapshot, ws: seq<Write>, probe: Probe, key: string)
  {
    match LastWrite(ws, key)
    case None => Get(data, key) == Get(before, key)
    case Some(w) => Get(data, key).Some? && probe(w.sensor, w.arg) == Read(Get(data, key).value)
  }

  lemma {:induction false} DedupFromAppend(acc: seq<string>, a: seq<string>, b: seq<string>)
    ensures DedupFrom(acc, a + b) == DedupFrom(DedupFrom(acc, a), b)
    decreases |a|
  {
    if a != [] {
      assert (a + b)[0] == a[0] && (a + b)[1..] == a[1..] + b;
      DedupFromAppend(AddKey(acc, a[0]), a[1..], b);
    } else {
      assert a + b == b;
    }
  }

  lemma {:induction false} WriteKeysAppend(a: seq<Write>, b: seq<Write>)
    ensures WriteKeys(a + b) == WriteKeys(a) + WriteKeys(b)
    decreases |a|
  {
    if a != [] {
      assert (a + b)[0] == a[0] && (a + b)[1..] == a[1..] + b;
      WriteKeysAppend(a[1..], b);
    } else {
      assert a + b == b;
    }
  }

  lemma {:induction false} EachWriteKeys(items: seq<string>, sensor: Sensor)
    ensures WriteKeys(EachWrites(items, sensor)) == items
    decreases |items|
  {
    if items != [] {
      EachWriteKeys(items[1..], sensor);
    }
  }

  /** A later assignment of a key wins over an earlier one. */
  lemma {:induction false} LastWriteAppend(a: seq<Write>, b: seq<Write>, key: string)
    ensures LastWrite(a + b, key) == if LastWrite(b, key).Some? then LastWrite(b, key) else LastWrite(a, key)
    decreases |a|
  {
    if a != [] {
      assert (a + b)[0] == a[0] && (a + b)[1..] == a[1..] + b;
      LastWriteAppend(a[1..], b, key);
    } else {
      assert a + b == b;
    }
  }

  lemma {:induction false} SampleEachFacts(probe: Probe, sensor: Sensor, items: seq<string>, data: Snapshot, key: string)
    requires SampleEach(probe, sensor, items, data).Success?
    ensures Keys(SampleEach(probe, sensor, items, data).value) == DedupFrom(Keys(data), items)
    ensures HoldsAfter(SampleEach(probe, sensor, items, data).value, data, EachWrites(items, sensor), probe, key)
    decreases |items|
  {
    if items != [] {
      var r := probe(sensor, items[0]).reading;
      var next := Set(data, items[0], r);
      SetKeys(data, items[0], r);
      SetGet(data, items[0], r, key);
      SampleEachFacts(probe, sensor, items[1..], next, key);
      var ws := EachWrites(items, sensor);
      assert ws == [Write(items[0], sensor, items[0])] + EachWrites(items[1..], sensor);
      LastWriteAppend([Write(items[0], sensor, items[0])], EachWrites(items[1..], sensor), key);
    }
  }

  lemma {:induction false} SampleEachReliable(probe: Probe, sensor: Sensor, items: seq<string>, data: Snapshot)
    requires Reliable(probe)
    ensures SampleEach(probe, sensor, items, data).Success?
    decreases |items|
  {
    if items != [] {
      assert probe(sensor, items[0]).Read?;
      SampleEachReliable(probe, sensor, items[1..], Set(data, items[0], probe(sensor, items[0]).reading));
    }
  }

  lemma FlagFacts(messages: Value, flag: string, k: string, sensor: Sensor, arg: string, probe: Probe, data: Snapshot, key: string)
    requires RunStep(messages, Flag(flag, k, sensor, arg), probe, data).Success?
    ensures var ws := StepWrites(messages, Flag(flag, k, sensor, arg));
            var after := RunStep(messages, Flag(flag, k, sensor, arg), probe, data).value;
            ws.Success? &&
            Keys(after) == DedupFrom(Keys(data), WriteKeys(ws.value)) &&
            HoldsAfter(after, data, ws.value, probe, key)
  {
    var on := Index(messages, flag).value;
    if Truthy(on) {
      var r := probe(sensor, arg).reading;
      SetKeys(data, k, r);
      SetGet(data, k, r, key);
      assert StepWrites(messages, Flag(flag, k, sensor, arg)).value == [Write(k, sensor, arg)];
      assert WriteKeys([Write(k, sensor, arg)]) == [k];
      assert [Write(k, sensor, arg)][1..] == [];
      assert LastWrite([Write(k, sensor, arg)], key) == if k == key then Some(Write(k, sensor, arg)) else None;
      assert DedupFrom(Keys(data), [k]) == AddKey(Keys(data), k);
    } else {
      assert StepWrites(messages, Flag(flag, k, sensor, arg)).value == [];
    }
  }

  lemma EachFacts(messages: Value, flag: string, sensor: Sensor, probe: Probe, data: Snapshot, key: string)
    requires RunStep(messages, Each(flag, sensor), probe, data).Success?
    ensures var ws := StepWrites(messages, Each(flag, sensor));
            var after := RunStep(messages, Each(flag, sensor), probe, data).value;
            ws.Success? &&
            Keys(after) == DedupFrom(Keys(data), WriteKeys(ws.value)) &&
            HoldsAfter(after, data, ws.value, probe, key)
  {
    var items := Iterate(Index(messages, flag).value).value;
    SampleEachFacts(probe, sensor, items, data, key);
    EachWriteKeys(items, sensor);
  }

  /** One check that completes makes exactly its assignments. */
  lemma RunStepFacts(messages: Value, step: Step, probe: Probe, data: Snapshot, key: string)
    requires RunStep(messages, step, probe, data).Success?
    ensures StepWrites(messages, step).Success?
    ensures Keys(RunStep(messages, step, probe, data).value) == DedupFrom(Keys(data), WriteKeys(StepWrites(messages, step).value))
    ensures HoldsAfter(RunStep(messages, step, probe, data).value, data, StepWrites(messages, step).value, probe, key)
  {
    match step {
      case Flag(flag, k, sensor, arg) => FlagFacts(messages, flag, k, sensor, arg, probe, data, key);
      case Each(flag, sensor) => EachFacts(messages, flag, sensor, probe, data, key);
    }
  }

  /** A completed collection holds exactly the keys the checks assign, each once, in the order
      of first assignment, and under each key the reading of the last check that assigned it. */
  lemma {:induction false} RunPlanFacts(messages: Value, steps: seq<Step>, probe: Probe, data: Snapshot, key: string)
    requires RunPlan(messages, steps, probe, data).Success?
    ensures PlanWrites(messages, steps).Success?
    ensures Keys(RunPlan(messages, steps, probe, data).value) == DedupFrom(Keys(data), WriteKeys(PlanWrites(messages, steps).value))
    ensures HoldsAfter(RunPlan(messages, steps, probe, data).value, data, PlanWrites(messages, steps).value, probe, key)
    decreases |steps|
  {
    if steps != [] {
      var next := RunStep(messages, steps[0], probe, data).value;
      RunStepFacts(messages, steps[0], probe, data, key);
      RunPlanFacts(messages, steps[1..], probe, next, key);
      var first := StepWrites(messages, steps[0]).value;
      var rest := PlanWrites(messages, steps[1..]).value;
      WriteKeysAppend(first, rest);
      DedupFromAppend(Keys(data), WriteKeys(first), WriteKeys(rest));
      LastWriteAppend(first, rest, key);
    }
  }

  /** When no probe raises, a collection fails exactly when a lookup of the configuration
      fails, and with the same error. */
  lemma {:induction false} RunPlanReliable(messages: Value, steps: seq<Step>, probe: Probe, data: Snapshot)
    requires Reliable(probe)
    ensures RunPlan(messages, steps, probe, data).Success? == PlanWrites(messages, steps).Success?
    ensures RunPlan(messages, steps, probe, data).Failure? ==>
              RunPlan(messages, steps, probe, data).error == PlanWrites(messages, steps).error
    decreases |steps|
  {
    if steps != [] {
      match steps[0] {
        case Flag(flag, key, sensor, arg) =>
          assert probe(sensor, arg).Read?;
        case Each(flag, sensor) =>
          var option := Index(messages, flag);
          if option.Success? && Iterate(option.value).Success? {
            SampleEachReliable(probe, sensor, Iterate(option.value).value, data);
          }
      }
      var next := RunStep(messages, steps[0], probe, data);
      if next.Success? {
        RunPlanReliable(messages, steps[1..], probe, next.value);
      }
    }
  }

  /** The snapshot's keys are the enabled metric names, each once, in the fixed check order
      (a disabled metric is absent), and each key holds the reading of the probe that the last
      check assigning it called. */
  lemma CollectionContents(config: Configuration, probe: Probe, key: string)
    requires Collection(config, probe).Success?
    ensures EnabledKeys(config).Success?
    ensures Keys(Collection(config, probe).value) == DedupFrom([], EnabledKeys(config).value)
    ensures Unique(Keys(Collection(config, probe).value))
    ensures var ws := PlanWrites(Lookup(config, "messages").value, Plan).value;
            HoldsAfter(Collection(config, probe).value, [], ws, probe, key)
  {
    var messages := Lookup(config, "messages").value;
    RunPlanFacts(messages, Plan, probe, [], key);
    DedupFromFacts([], EnabledKeys(config).value);
  }

  /** When no probe raises, the cycle's collection fails exactly when the configuration lacks
      (or mistypes) a looked-up option, and with that lookup's error. */
  lemma CollectionReliable(config: Configuration, probe: Probe)
    requires Reliable(probe)
    ensures Collection(config, probe).Success? == EnabledKeys(config).Success?
    ensures Collection(config, probe).Failure? ==> Collection(config, probe).error == EnabledKeys(config).error
  {
    var messages := Lookup(config, "messages");
    if messages.Success? {
      RunPlanReliable(messages.value, Plan, probe, []);
    }
  }

  /** The list a list-valued check finds when the other disks are `disks` and the drives `drives`. */
  function Listed(flag: string, disks: seq<string>, drives: seq<string>): seq<string>
  {
    if flag == "other_diskusage" then disks else drives
  }

  /** The check `step` finds its option on in `messages`: its flag set, or its list of disks
      or drives. */
  predicate OptionOn(messages: Value, step: Step, disks: seq<string>, drives: seq<string>)
  {
    match step
    case Flag(flag, _, _, _) => Index(messages, flag) == Success(Bool(true))
    case Each(flag, _) => Index(messages, flag) == Success(List(Listed(flag, disks, drives)))
  }

  /** Every check of `publish` finds its option on. */
  predicate AllOn(messages: Value, disks: seq<string>, drives: seq<string>)
  {
    forall k | 0 <= k < |Plan| :: OptionOn(messages, Plan[k], disks, drives)
  }

  /** The keys one check adds when its option is on. */
  function OnKeys(step: Step, disks: seq<string>, drives: seq<string>): seq<string>
  {
    match step
    case Flag(_, key, _, _) => [key]
    case Each(flag, _) => Listed(flag, disks, drives)
  }

  /** The keys the checks from the `i`-th on add when their options are on. */
  function OnKeysFrom(steps: seq<Step>, i: nat, disks: seq<string>, drives: seq<string>): seq<string>
    decreases |steps| - i
  {
    if i >= |steps| then [] else OnKeys(steps[i], disks, drives) + OnKeysFrom(steps, i + 1, disks, drives)
  }

  /** With every option on, the checks assign exactly the keys `OnKeysFrom` lists, in order. */
  lemma {:induction false} AllOnWrites(messages: Value, steps: seq<Step>, i: nat, disks: seq<string>, drives: seq<string>)
    requires i <= |steps|
    requires forall k | i <= k < |steps| :: OptionOn(messages, steps[k], disks, drives)
    ensures PlanWrites(messages, steps[i..]).Success?
    ensures WriteKeys(PlanWrites(messages, steps[i..]).value) == OnKeysFrom(steps, i, disks, drives)
    decreases |steps| - i
  {
    if i < |steps| {
      AllOnWrites(messages, steps, i + 1, disks, drives);
      assert steps[i..][0] == steps[i] && steps[i..][1..] == steps[i + 1..];
      assert OptionOn(messages, steps[i], disks, drives);
      var first := StepWrites(messages, steps[i]).value;
      var rest := PlanWrites(messages, steps[i + 1..]).value;
      WriteKeysAppend(first, rest);
      if steps[i].Each? {
        EachWriteKeys(Listed(steps[i].flag, disks, drives), steps[i].sensor);
      }
    }
  }

  /** With every flag of `messages` set, `other_diskusage` listing `disks` and `smart_temp`
      listing `drives`, the enabled metric names are all of them, in the order of the checks:
      the listed disks and drives come between `diskusage` and `voltage`, and the flag
      `uptime` names `uptime_days`. */
  lemma AllEnabledKeys(config: Configuration, disks: seq<string>, drives: seq<string>)
    requires Lookup(config, "messages").Success?
    requires AllOn(Lookup(config, "messages").value, disks, drives)
    ensures EnabledKeys(config) == Success(["cpu_load", "cpu_temp", "diskusage"] + disks + drives +
              ["voltage", "sys_clock_speed", "swap", "memory", "uptime_days", "wifi_signal", "wifi_signal_dbm", "timestamp"])
  {
    AllOnWrites(Lookup(config, "messages").value, Plan, 0, disks, drives);
    PlanOnKeys(disks, drives);
    assert Plan[0..] == Plan;
  }

  /** The keys of the checks of `publish` when every option is on, written out. */
  lemma PlanOnKeys(disks: seq<string>, drives: seq<string>)
    ensures OnKeysFrom(Plan, 0, disks, drives) == ["cpu_load", "cpu_temp", "diskusage"] + disks + drives +
              ["voltage", "sys_clock_speed", "swap", "memory", "uptime_days", "wifi_signal", "wifi_signal_dbm", "timestamp"]
  {
  }

  /** The metric names of a configuration with every metric on, one extra disk and one drive. */
  const EverythingOnKeys: seq<string> := [
    "cpu_load", "cpu_temp", "diskusage", "/mnt/data", "/dev/sda", "voltage", "sys_clock_speed",
    "swap", "memory", "uptime_days", "wifi_signal", "wifi_signal_dbm", "timestamp"
  ]

  /** The names of `EverythingOnKeys` differ from each other, and they are the order
      `AllEnabledKeys` gives for that disk and that drive. */
  lemma EverythingOnKeysFacts()
    ensures Unique(EverythingOnKeys)
    ensures ["cpu_load", "cpu_temp", "diskusage"] + ["/mnt/data"] + ["/dev/sda"] +
            ["voltage", "sys_clock_speed", "swap", "memory", "uptime_days", "wifi_signal", "wifi_signal_dbm", "timestamp"] ==
            EverythingOnKeys
  {
  }

  /** The snapshot of a configuration with every metric on, one extra disk and one drive,
      when no probe raises: the metrics in the order of the checks, each once. */
  lemma EverythingOnOrder(config: Configuration, probe: Probe)
    requires Lookup(config, "messages").Success?
    requires AllOn(Lookup(config, "messages").value, ["/mnt/data"], ["/dev/sda"])
    requires Reliable(probe)
    ensures Collection(config, probe).Success?
    ensures Keys(Collection(config, probe).value) == EverythingOnKeys
  {
    AllEnabledKeys(config, ["/mnt/data"], ["/dev/sda"]);
    EverythingOnKeysFacts();
    CollectionReliable(config, probe);
    CollectionContents(config, probe, "");
    DedupFromUnique(EverythingOnKeys);
  }

  lemma RunPlanStep(messages: Value, steps: seq<Step>, probe: Probe, data: Snapshot, k: nat)
    requires k < |steps|
    ensures RunPlan(messages, steps[k..], probe, data) ==
            match RunStep(messages, steps[k], probe, data)
            case Failure(e) => Failure(e)
            case Success(next) => RunPlan(messages, steps[k + 1..], probe, next)
  {
    assert steps[k..][0] == steps[k] && steps[k..][1..] == steps[k + 1..];
  }

  /** The collection part of `publish`, check by check as the source makes them. */
  method Collect(config: Configuration, probe: Probe) returns (r: Result<Snapshot>)
    ensures r == Collection(config, probe)
  {
    var section := Lookup(config, "messages");
    if section.Failure? {
      return Failure(section.error);
    }
    var messages := section.value;
    assert Plan[0..] == Plan;
    r := CollectCpuAndDisks(messages, probe, []);
    if r.Failure? { return; }
    r := CollectCpuClock(messages, probe, r.value);
    if r.Failure? { return; }
    r := CollectSystem(messages, probe, r.value);
    if r.Failure? { return; }
    r := CollectOptional(messages, probe, r.value);
  }

  /** The checks of CPU load and temperature, the root disk, further disks and drive temperatures. */
  method CollectCpuAndDisks(messages: Value, probe: Probe, data: Snapshot) returns (r: Result<Snapshot>)
    ensures r.Failure? ==> RunPlan(messages, Plan[0..], probe, data) == r
    ensures r.Success? ==> RunPlan(messages, Plan[0..], probe, data) == RunPlan(messages, Plan[5..], probe, r.value)
  {
    var d := data;
    RunPlanStep(messages, Plan, probe, d, 0);
    r := CollectFlag(messages, "cpu_load", "cpu_load", CpuLoad, "", probe, d);
    if r.Failure? { return; }
    d := r.value;

    RunPlanStep(messages, Plan, probe, d, 1);
    r := CollectFlag(messages, "cpu_temp", "cpu_temp", CpuTemp, "", probe, d);
    if r.Failure? { return; }
    d := r.value;

    RunPlanStep(messages, Plan, probe, d, 2);
    r := CollectFlag(messages, "diskusage", "diskusage", DiskUsage, "/", probe, d);
    if r.Failure? { return; }
    d := r.value;

    RunPlanStep(messages, Plan, probe, d, 3);
    r := CollectEach(messages, "other_diskusage", DiskUsage, probe, d);
    if r.Failure? { return; }
    d := r.value;

    RunPlanStep(messages, Plan, probe, d, 4);
    r := CollectEach(messages, "smart_temp", SmartTemp, probe, d);
  }

  /** The checks of CPU voltage and clock speed. */
  method CollectCpuClock(messages: Value, probe: Probe, data: Snapshot) returns (r: Result<Snapshot>)
    ensures r.Failure? ==> RunPlan(messages, Plan[5..], probe, data) == r
    ensures r.Success? ==> RunPlan(messages, Plan[5..], probe, data) == RunPlan(messages, Plan[7..], probe, r.value)
  {
    var d := data;
    RunPlanStep(messages, Plan, probe, d, 5);
    r := CollectFlag(messages, "voltage", "voltage", Voltage, "", probe, d);
    if r.Failure? { return; }
    d := r.value;

    RunPlanStep(messages, Plan, probe, d, 6);
    r := CollectFlag(messages, "sys_clock_speed", "sys_clock_speed", SysClockSpeed, "", probe, d);
  }

  /** The checks of swap, memory and uptime. */
  method CollectSystem(messages: Value, probe: Probe, data: Snapshot) returns (r: Result<Snapshot>)
    ensures r.Failure? ==> RunPlan(messages, Plan[7..], probe, data) == r
    ensures r.Success? ==> RunPlan(messages, Plan[7..], probe, data) == RunPlan(messages, Plan[10..], probe, r.value)
  {
    var d := data;
    RunPlanStep(messages, Plan, probe, d, 7);
    r := CollectFlag(messages, "swap", "swap", Swap, "", probe, d);
    if r.Failure? { return; }
    d := r.value;

    RunPlanStep(messages, Plan, probe, d, 8);
    r := CollectFlag(messages, "memory", "memory", Memory, "", probe, d);
    if r.Failure? { return; }
    d := r.value;

    RunPlanStep(messages, Plan, probe, d, 9);
    r := CollectFlag(messages, "uptime", "uptime_days", Uptime, "", probe, d);
  }

  /** The checks of the Wi-Fi signal (as a percentage and in dBm) and of the timestamp. */
  method CollectOptional(messages: Value, probe: Probe, data: Snapshot) returns (r: Result<Snapshot>)
    ensures r == RunPlan(messages, Plan[10..], probe, data)
  {
    var d := data;
    RunPlanStep(messages, Plan, probe, d, 10);
    r := CollectFlag(messages, "wifi_signal", "wifi_signal", WifiSignal, "", probe, d);
    if r.Failure? { return; }
    d := r.value;

    RunPlanStep(messages, Plan, probe, d, 11);
    r := CollectFlag(messages, "wifi_signal_dbm", "wifi_signal_dbm", WifiSignalDbm, "", probe, d);
    if r.Failure? { return; }
    d := r.value;

    RunPlanStep(messages, Plan, probe, d, 12);
    r := CollectFlag(messages, "timestamp", "timestamp", Timestamp, "", probe, d);
    if r.Failure? { return; }
    assert Plan[13..] == [];
  }

  /** `if messages[flag]: data[key] = probe(sensor, arg)`. */
  method CollectFlag(messages: Value, flag: string, key: string, sensor: Sensor, arg: string, probe: Probe, data: Snapshot)
    returns (r: Result<Snapshot>)
    ensures r == RunStep(messages, Flag(flag, key, sensor, arg), probe, data)
  {
    var on := Index(messages, flag);
    if on.Failure? { return Failure(on.error); }
    r := Success(data);
    if Truthy(on.value) {
      var p := probe(sensor, arg);
      if p.Raised? { return Failure(ProbeRaised); }
      r := Success(Set(data, key, p.reading));
    }
  }

  /** `if len(messages[flag]) > 0: for item in messages[flag]: data[item] = probe(item)`. */
  method CollectEach(messages: Value, flag: string, sensor: Sensor, probe: Probe, data: Snapshot)
    returns (r: Result<Snapshot>)
    ensures r == RunStep(messages, Each(flag, sensor), probe, data)
  {
    var option := Index(messages, flag);
    if option.Failure? { return Failure(option.error); }
    var items := Iterate(option.value);
    if items.Failure? { return Failure(items.error); }
    var entries := data;
    var i := 0;
    while i < |items.value|
      invariant 0 <= i <= |items.value|
      invariant SampleEach(probe, sensor, items.value, data) == SampleEach(probe, sensor, items.value[i..], entries)
    {
      var item := items.value[i];
      assert items.value[i..][0] == item && items.value[i..][1..] == items.value[i + 1..];
      var p := probe(sensor, item);
      if p.Raised? {
        assert Sample(probe, sensor, item, item, entries) == Failure(ProbeRaised);
        return Failure(ProbeRaised);
      }
      assert Sample(probe, sensor, item, item, entries) == Success(Set(entries, item, p.reading));
      entries := Set(entries, item, p.reading);
      i := i + 1;
    }
    assert items.value[i..] == [];
    r := Success(entries);
  }
}

=== FILE: config.dfy ===
/** The monitor's configuration: compiled-in defaults overlaid with the YAML document's
    top-level entries, the lookups the rest of the monitor performs on it, and the base
    topic derived from the topic prefix and the host name. */
module Config {
  import opened Dicts
  import opened Values
  import opened Text

  /** The configuration is the top-level dict: sections (`mqtt`, `bulk`, `messages`) are
      `Dict` values, the other options are scalars. */
  type Configuration = Assoc<Value>

  /** The placeholder in `mqtt.topic_prefix` that stands for the host name. */
  const HostnameToken: string := "$HOSTNAME"

  const DefaultMqtt: Assoc<Value> := [
    ("broker", Str("127.0.0.1")),
    ("port", Int(1883)),
    ("username", Null),
    ("password", Null),
    ("topic_prefix", Str("pimon/$HOSTNAME")),
    ("retain", Bool(false)),
    ("qos", Int(1))
  ]

  const DefaultBulk: Assoc<Value> := [
    ("group_messages", Bool(false)),
    ("format_as_json", Bool(false))
  ]

  const DefaultMessages: Assoc<Value> := [
    ("cpu_load", Bool(true)),
    ("cpu_temp", Bool(true)),
    ("diskusage", Bool(true)),
    ("other_diskusage", List([])),
    ("smart_temp", List([])),
    ("voltage", Bool(true)),
    ("sys_clock_speed", Bool(true)),
    ("swap", Bool(true)),
    ("memory", Bool(true)),
    ("uptime", Bool(true)),
    ("wifi_signal", Bool(false)),
    ("wifi_signal_dbm", Bool(false)),
    ("timestamp", Bool(false))
  ]

  /** The compiled-in defaults of `load_config`, in source order. */
  const Defaults: Configuration := [
    ("mqtt", Dict(DefaultMqtt)),
    ("bulk", Dict(DefaultBulk)),
    ("loop_time", Int(30)),
    ("sleep_time", Float(0.5)),
    ("discovery_messages", Bool(true)),
    ("messages", Dict(DefaultMessages))
  ]

  /** `load_config` after the YAML document has been parsed into `document`: the document's
      top-level entries laid over the defaults. A document that is not a mapping (an empty
      file parses to `None`) cannot be unpacked with `**`. */
  function LoadConfig(document: Value): (r: Result<Configuration>)
    ensures r.Success? <==> document.Dict?
  {
    match document
    case Dict(entries) => Success(Merge(Defaults, entries))
    case _ => Failure(TypeError)
  }

  /** `config[key]`. */
  function Lookup(config: Configuration, key: string): (r: Result<Value>)
    ensures r.Success? <==> key in Keys(config)
    ensures r.Success? ==> Get(config, key) == Some(r.value)
    ensures r.Failure? ==> r.error == KeyError(key)
  {
    match Get(config, key)
    case Some(v) => Success(v)
    case None => Failure(KeyError(key))
  }

  /** `config[section][key]`. */
  function Path(config: Configuration, section: string, key: string): (r: Result<Value>)
    ensures r.Success? <==>
              section in Keys(config) && Lookup(config, section).value.Dict? &&
              key in Keys(Lookup(config, section).value.entries)
    ensures r.Success? ==> Get(Lookup(config, section).value.entries, key) == Some(r.value)
    ensures r.Failure? ==>
              r.error == if section !in Keys(config) then KeyError(section)
                         else if Lookup(config, section).value.Dict? then KeyError(key)
                         else TypeError
  {
    var s :- Lookup(config, section);
    Index(s, key)
  }

  /** `config["mqtt"]["qos"]`, passed unchanged to every publish. */
  function Qos(config: Configuration): Result<Value>
  {
    Path(config, "mqtt", "qos")
  }

  /** `config["mqtt"]["retain"]`, the retain flag of metric messages. */
  function Retain(config: Configuration): Result<Value>
  {
    Path(config, "mqtt", "retain")
  }

  /** `time.sleep(config["sleep_time"])`: succeeds with the pause length or raises. */
  function SleepTime(config: Configuration): (r: Result<Value>)
    ensures r.Success? <==> Lookup(config, "sleep_time").Success? && SleepError(Lookup(config, "sleep_time").value).None?
    ensures r.Success? ==> Lookup(config, "sleep_time") == r
    ensures r.Failure? && Lookup(config, "sleep_time").Success? ==> SleepError(Lookup(config, "sleep_time").value) == Some(r.error)
    ensures r.Failure? ==> (r.error.KeyError? <==> Lookup(config, "sleep_time").Failure?)
  {
    var v :- Lookup(config, "sleep_time");
    match SleepError(v)
    case None => Success(v)
    case Some(e) => Failure(e)
  }

  /** The module-level `base_topic`: `config["mqtt"]["topic_prefix"]` with every
      `$HOSTNAME` replaced by the host name; a prefix that is not a string has no `.replace`. */
  function BaseTopic(config: Configuration, hostname: string): (r: Result<string>)
    ensures r.Success? <==> Path(config, "mqtt", "topic_prefix").Success? && Path(config, "mqtt", "topic_prefix").value.Str?
    ensures r.Failure? && Path(config, "mqtt", "topic_prefix").Success? ==> r.error == AttributeError
    ensures Path(config, "mqtt", "topic_prefix").Failure? ==> r == Failure(Path(config, "mqtt", "topic_prefix").error)
  {
    var prefix :- Path(config, "mqtt", "topic_prefix");
    if prefix.Str? then Success(ReplaceAll(prefix.s, HostnameToken, hostname))
    else Failure(AttributeError)
  }

  /** The module-level start-up: load the configuration, then derive the base topic from it
      and the host name. */
  function Startup(document: Value, hostname: string): (r: Result<(Configuration, string)>)
    ensures r.Success? <==> LoadConfig(document).Success? && BaseTopic(LoadConfig(document).value, hostname).Success?
    ensures r.Success? ==> r.value.0 == LoadConfig(document).value && r.value.1 == BaseTopic(r.value.0, hostname).value
  {
    var config :- LoadConfig(document);
    var baseTopic :- BaseTopic(config, hostname);
    Success((config, baseTopic))
  }

  /** The per-key meaning of `load_config`: each top-level key comes from the document when
      the document has it, otherwise from the defaults. A section the document gives replaces
      the default section wholesale. */
  lemma LoadConfigShallow(document: Value, key: string)
    requires document.Dict? && Unique(Keys(document.entries))
    ensures LoadConfig(document).Success?
    ensures Lookup(LoadConfig(document).value, key) ==
            if key in Keys(document.entries) then Lookup(document.entries, key) else Lookup(Defaults, key)
  {
    MergeGet(Defaults, document.entries, key);
  }

  /** The configuration keeps the defaults' top-level keys first, in their order, and then
      the document's other keys in the document's order. */
  lemma LoadConfigKeyOrder(document: Value)
    requires document.Dict?
    ensures LoadConfig(document).Success?
    ensures Keys(LoadConfig(document).value) == DedupFrom(Keys(Defaults), Keys(document.entries))
  {
    MergeKeys(Defaults, document.entries);
  }

  lemma DefaultKeys()
    ensures Keys(Defaults) == ["mqtt", "bulk", "loop_time", "sleep_time", "discovery_messages", "messages"]
    ensures Unique(Keys(Defaults))
  {
  }

  /** Whatever the document holds, every top-level option has a value afterwards: lookups of
      `loop_time`, `sleep_time`, `discovery_messages` and the section names cannot raise
      `KeyError` (the options inside a section can, as a section is replaced wholesale). */
  lemma LoadConfigHasDefaults(document: Value, key: string)
    requires document.Dict?
    requires key in Keys(Defaults)
    ensures LoadConfig(document).Success? && Lookup(LoadConfig(document).value, key).Success?
  {
    DefaultKeys();
    MergeKeys(Defaults, document.entries);
    DedupFromFacts(Keys(Defaults), Keys(document.entries));
  }

  /** Overriding one flag of `messages` drops every other default flag of that section: a
      document giving only `messages: {cpu_load: false}` leaves `cpu_temp` undefined. */
  lemma OverrideSectionDropsDefaults()
    ensures var doc := Dict([("messages", Dict([("cpu_load", Bool(false))]))]);
            LoadConfig(doc).Success? &&
            Lookup(LoadConfig(doc).value, "messages") == Success(Dict([("cpu_load", Bool(false))])) &&
            Path(LoadConfig(doc).value, "messages", "cpu_temp") == Failure(KeyError("cpu_temp"))
  {
    var section := Dict([("cpu_load", Bool(false))]);
    var doc := Dict([("messages", section)]);
    LoadConfigShallow(doc, "messages");
    assert Lookup(doc.entries, "messages") == Success(section);
  }

  /** A prefix without the placeholder is the base topic as it stands. */
  lemma BaseTopicWithoutToken(config: Configuration, hostname: string, prefix: string)
    requires Path(config, "mqtt", "topic_prefix") == Success(Str(prefix))
    requires !Contains(prefix, HostnameToken)
    ensures BaseTopic(config, hostname) == Success(prefix)
  {
    ReplaceWithoutToken(prefix, HostnameToken, hostname);
  }

  /** The base topic is the prefix's pieces between placeholders, joined by the host name;
      joining them by the placeholder again gives the prefix back. */
  lemma BaseTopicPieces(config: Configuration, hostname: string, prefix: string)
    requires Path(config, "mqtt", "topic_prefix") == Success(Str(prefix))
    ensures BaseTopic(config, hostname) == Success(Join(Split(prefix, HostnameToken), hostname))
    ensures Join(Split(prefix, HostnameToken), HostnameToken) == prefix
  {
    ReplaceIsSplitJoin(prefix, HostnameToken, hostname);
    SplitJoinRoundTrip(prefix, HostnameToken);
  }

  lemma DefaultTopicPrefix()
    ensures Path(Defaults, "mqtt", "topic_prefix") == Success(Str("pimon/$HOSTNAME"))
  {
    assert Lookup(Defaults, "mqtt") == Success(Dict(DefaultMqtt));
  }

  lemma SplitDefaultPrefix(prefix: string)
    requires prefix == "pimon/$HOSTNAME"
    ensures Split(prefix, HostnameToken) == ["pimon/", ""]
  {
    var head := "pimon/";
    var whole := head + HostnameToken;
    forall i: nat | i < |head|
      ensures !OccursAt(whole, HostnameToken, i)
    {
      assert whole[i] == head[i] != '$';
      assert i + |HostnameToken| <= |whole| ==> whole[i..i + |HostnameToken|][0] != HostnameToken[0];
    }
    SplitAfterPiece(head, HostnameToken, "");
    assert Split("", HostnameToken) == [""];
    assert head + HostnameToken + "" == prefix;
  }

  lemma JoinDefaultPieces(hostname: string)
    ensures Join(["pimon/", ""], hostname) == "pimon/" + hostname
  {
    var parts := ["pimon/", ""];
    assert parts[1..] == [""];
  }

  /** The default prefix `pimon/$HOSTNAME` gives `pimon/` followed by the host name. */
  lemma DefaultBaseTopic(hostname: string)
    ensures BaseTopic(Defaults, hostname) == Success("pimon/" + hostname)
  {
    DefaultTopicPrefix();
    var prefix := Path(Defaults, "mqtt", "topic_prefix").value.s;
    SplitDefaultPrefix(prefix);
    BaseTopicPieces(Defaults, hostname, prefix);
    JoinDefaultPieces(hostname);
  }

  /** A document without an `mqtt` section keeps the default prefix: the monitor publishes
      under `pimon/` followed by the host name. */
  lemma StartupWithoutMqtt(document: Value, hostname: string)
    requires document.Dict? && Unique(Keys(document.entries))
    requires "mqtt" !in Keys(document.entries)
    ensures LoadConfig(document).Success?
    ensures Startup(document, hostname) == Success((LoadConfig(document).value, "pimon/" + hostname))
  {
    LoadConfigShallow(document, "mqtt");
    var config := LoadConfig(document).value;
    assert Path(config, "mqtt", "topic_prefix") == Path(Defaults, "mqtt", "topic_prefix");
    assert BaseTopic(config, hostname) == BaseTopic(Defaults, hostname);
    DefaultBaseTopic(hostname);
  }
}

=== FILE: dicts.dfy ===
/** Insertion-ordered dictionaries with string keys, as Python's `dict` behaves
    since 3.7: a key keeps the position of its first insertion, and assigning
    to a present key replaces its value in place. */
module Dicts {

  datatype Option<+T> = None | Some(value: T)

  /** A dictionary as the sequence of its (key, value) entries, in insertion order. */
  type Assoc<V> = seq<(string, V)>

  /** The keys of `d`, in insertion order (`list(d.keys())`). */
  function Keys<V>(d: Assoc<V>): (ks: seq<string>)
    ensures |ks| == |d|
    ensures forall i :: 0 <= i < |d| ==> ks[i] == d[i].0
  {
    if d == [] then [] else [d[0].0] + Keys(d[1..])
  }

  /** No key occurs twice: true of every Python dict. */
  predicate Unique(ks: seq<string>)
  {
    forall i, j :: 0 <= i < j < |ks| ==> ks[i] != ks[j]
  }

  /** `d.get(k)`: the value stored under `k`, if any. */
  function Get<V>(d: Assoc<V>, k: string): (r: Option<V>)
    ensures r.Some? <==> k in Keys(d)
    ensures r.Some? ==> (k, r.value) in d
  {
    if d == [] then None
    else if d[0].0 == k then Some(d[0].1)
    else Get(d[1..], k)
  }

  /** The key order after one more insertion of `k`. */
  function AddKey(ks: seq<string>, k: string): seq<string>
  {
    if k in ks then ks else ks + [k]
  }

  /** The key order after inserting each of `ks` in turn into a dict whose keys are `acc`:
      the keys of `acc`, then the new keys in the order they first occur. */
  function DedupFrom(acc: seq<string>, ks: seq<string>): seq<string>
    decreases ks
  {
    if ks == [] then acc else DedupFrom(AddKey(acc, ks[0]), ks[1..])
  }

  /** `d[k] = v`: a present key is updated in place, an absent one is appended. */
  function Set<V>(d: Assoc<V>, k: string, v: V): Assoc<V>
  {
    if d == [] then [(k, v)]
    else if d[0].0 == k then [(k, v)] + d[1..]
    else [d[0]] + Set(d[1..], k, v)
  }

  /** After `d[k] = v`, `k` maps to `v` and every other key to what it mapped to before. */
  lemma {:induction false} SetGet<V>(d: Assoc<V>, k: string, v: V, k': string)
    ensures Get(Set(d, k, v), k') == if k' == k then Some(v) else Get(d, k')
  {
    if d != [] && d[0].0 != k {
      SetGet(d[1..], k, v, k');
    }
  }

  /** Assignment keeps the key order: an existing key stays where it is, a new one goes last. */
  lemma {:induction false} SetKeys<V>(d: Assoc<V>, k: string, v: V)
    ensures Keys(Set(d, k, v)) == AddKey(Keys(d), k)
  {
    var r := Set(d, k, v);
    if d == [] {
    } else if d[0].0 == k {
      assert r[1..] == d[1..];
    } else {
      SetKeys(d[1..], k, v);
      assert r[1..] == Set(d[1..], k, v);
      assert Keys(d) == [d[0].0] + Keys(d[1..]);
    }
  }

  /** `{**base, **override}`: a copy of `base` updated with every entry of `override`, in order. */
  function Merge<V>(base: Assoc<V>, override: Assoc<V>): (r: Assoc<V>)
    decreases override
  {
    if override == [] then base
    else Merge(Set(base, override[0].0, override[0].1), override[1..])
  }

  /** The keys of the base come first, in their order, followed by the override's new keys. */
  lemma {:induction false} MergeKeys<V>(base: Assoc<V>, override: Assoc<V>)
    ensures Keys(Merge(base, override)) == DedupFrom(Keys(base), Keys(override))
    decreases override
  {
    if override != [] {
      SetKeys(base, override[0].0, override[0].1);
      MergeKeys(Set(base, override[0].0, override[0].1), override[1..]);
      assert Keys(override)[1..] == Keys(override[1..]);
    }
  }

  lemma AddKeyUnique(ks: seq<string>, k: string)
    requires Unique(ks)
    ensures Unique(AddKey(ks, k))
    ensures forall x :: x in AddKey(ks, k) <==> x in ks || x == k
  {
  }

  /** Inserting keys never duplicates one, never loses one, and keeps the old keys first. */
  lemma {:induction false} DedupFromFacts(acc: seq<string>, ks: seq<string>)
    requires Unique(acc)
    ensures Unique(DedupFrom(acc, ks))
    ensures forall x :: x in DedupFrom(acc, ks) <==> x in acc || x in ks
    ensures |acc| <= |DedupFrom(acc, ks)| && DedupFrom(acc, ks)[..|acc|] == acc
    decreases ks
  {
    if ks != [] {
      AddKeyUnique(acc, ks[0]);
      DedupFromFacts(AddKey(acc, ks[0]), ks[1..]);
      var r := DedupFrom(acc, ks);
      assert r == DedupFrom(AddKey(acc, ks[0]), ks[1..]);
      assert AddKey(acc, ks[0])[..|acc|] == acc;
      assert r[..|acc|] == r[..|AddKey(acc, ks[0])|][..|acc|];
      forall x
        ensures x in r <==> x in acc || x in ks
      {
        assert x in ks <==> x == ks[0] || x in ks[1..];
      }
    }
  }

  /** Duplicate-free keys are their own insertion order. */
  lemma {:induction false} DedupFromUnique(ks: seq<string>)
    requires Unique(ks)
    ensures DedupFrom([], ks) == ks
  {
    var i := 0;
    while i < |ks|
      invariant 0 <= i <= |ks|
      invariant DedupFrom([], ks) == DedupFrom(ks[..i], ks[i..])
    {
      assert ks[i] !in ks[..i];
      assert AddKey(ks[..i], ks[i]) == ks[..i + 1];
      assert ks[i..][1..] == ks[i + 1..];
      i := i + 1;
    }
    assert ks[..i] == ks;
  }

  /** The per-key meaning of `{**base, **override}`: a key the override has takes the
      override's value, every other key keeps the base's value; nothing is merged deeper. */
  lemma {:induction false} MergeGet<V>(base: Assoc<V>, override: Assoc<V>, k: string)
    requires Unique(Keys(override))
    ensures Get(Merge(base, override), k) == if k in Keys(override) then Get(override, k) else Get(base, k)
    decreases override
  {
    if override != [] {
      var rest := override[1..];
      assert Keys(rest) == Keys(override)[1..];
      assert Unique(Keys(rest));
      MergeGet(Set(base, override[0].0, override[0].1), rest, k);
      SetGet(base, override[0].0, override[0].1, k);
      if k == override[0].0 {
        assert forall j :: 0 <= j < |Keys(rest)| ==> Keys(rest)[j] == Keys(override)[j + 1] != k;
      } else {
        assert k in Keys(override) <==> k in Keys(rest);
      }
    }
  }
}

=== FILE: discovery.dfy ===
/** Home Assistant MQTT discovery (`config_json`): the descriptor announcing one metric, and
    the topic it is announced on. */
module Discovery {
  import opened Dicts
  import opened Messages

  /** The presentation of one known metric: its icon, the text after the host name in its
      display name, and its unit of measurement. */
  datatype Look = Look(icon: string, caption: string, unit: string)

  /** The metric names `config_json` recognises. */
  const KnownNames: set<string> := {
    "cpuload", "cputemp", "diskusage", "voltage", "swap", "memory", "sys_clock_speed",
    "uptime_days", "wifi_signal", "wifi_signal_dbm", "timestamp"
  }

  /** The presentation `config_json`'s if/elif chain gives a metric name, if it knows it. */
  function LookOf(what: string): (r: Option<Look>)
    ensures r.Some? <==> what in KnownNames
  {
    if what == "cpuload" then Some(Look("mdi:speedometer", " CPU Usage", "%"))
    else if what == "cputemp" then Some(Look("hass:thermometer", " CPU Temperature", "\U{B0}C"))
    else if what == "diskusage" then Some(Look("mdi:harddisk", " Disk Usage", "%"))
    else if what == "voltage" then Some(Look("mdi:flash", " CPU Voltage", "V"))
    else if what == "swap" then Some(Look("mdi:harddisk", " Disk Swap", "%"))
    else if what == "memory" then Some(Look("mdi:memory", " Memory Usage", "%"))
    else if what == "sys_clock_speed" then Some(Look("mdi:speedometer", " CPU Clock Speed", "MHz"))
    else if what == "uptime_days" then Some(Look("mdi:calendar", " Uptime", "days"))
    else if what == "wifi_signal" then Some(Look("mdi:wifi", " Wifi Signal", "%"))
    else if what == "wifi_signal_dbm" then Some(Look("mdi:wifi", " Wifi Signal", "dBm"))
    else if what == "timestamp" then Some(Look("mdi:calendar", " Timestamp", ""))
    else None
  }

  /** The device every descriptor of this host names. */
  function DeviceOf(hostname: string, host: HostInfo): (d: Device)
    ensures d.identifiers == [hostname] && d.name == hostname
  {
    Device([hostname], host.manufacturer, host.model, hostname, host.os)
  }

  /** `config_json(what)`: the discovery descriptor of a known metric, whose state topic is
      where that metric is published and whose unique id is the host name and the metric name;
      for any other name, the empty string. */
  function ConfigJson(what: string, hostname: string, baseTopic: string, host: HostInfo): (p: Payload)
    ensures p.Plain? <==> what !in KnownNames
    ensures p.Plain? ==> p.text == ""
    ensures !p.Plain? ==> p.DescriptorJson?
    ensures p.DescriptorJson? ==>
              var d := p.descriptor;
              d.stateTopic == baseTopic + "/" + what &&
              d.uniqueId == hostname + "_" + what &&
              d.device == DeviceOf(hostname, host) &&
              |hostname| <= |d.name| && d.name[..|hostname|] == hostname &&
              LookOf(what) == Some(Look(d.icon, d.name[|hostname|..], d.unit))
  {
    match LookOf(what)
    case None => Plain("")
    case Some(look) =>
      DescriptorJson(Descriptor(baseTopic + "/" + what, look.icon, hostname + look.caption,
                                hostname + "_" + what, look.unit, DeviceOf(hostname, host)))
  }

  /** The retained topic that announces metric `item` of host `hostname`. */
  function DiscoveryTopic(hostname: string, item: string): string
  {
    "homeassistant/sensor/pimon/" + hostname + "_" + item + "/config"
  }

  /** Distinct metrics of one host are announced on distinct topics. */
  lemma DiscoveryTopicInjective(hostname: string, a: string, b: string)
    requires DiscoveryTopic(hostname, a) == DiscoveryTopic(hostname, b)
    ensures a == b
  {
    var head := "homeassistant/sensor/pimon/" + hostname + "_";
    var tail := "/config";
    assert DiscoveryTopic(hostname, a) == head + a + tail;
    assert DiscoveryTopic(hostname, b) == head + b + tail;
    assert |a| == |b|;
    assert a == (head + a + tail)[|head|..|head| + |a|];
    assert b == (head + b + tail)[|head|..|head| + |b|];
  }

  /** The names of the `messages` options for CPU load, CPU temperature and uptime, and the
      list options, are not names `config_json` recognises: announcing them publishes an empty
      payload. The snapshot stores CPU load and temperature under those same option names,
      so no descriptor ever points at them, while no default option asks for the descriptor
      for `uptime_days` (the snapshot's key for uptime). */
  lemma OptionNamesUnknown(hostname: string, baseTopic: string, host: HostInfo)
    ensures ConfigJson("cpu_load", hostname, baseTopic, host) == Plain("")
    ensures ConfigJson("cpu_temp", hostname, baseTopic, host) == Plain("")
    ensures ConfigJson("uptime", hostname, baseTopic, host) == Plain("")
    ensures ConfigJson("other_diskusage", hostname, baseTopic, host) == Plain("")
    ensures ConfigJson("smart_temp", hostname, baseTopic, host) == Plain("")
    ensures ConfigJson("uptime_days", hostname, baseTopic, host).DescriptorJson?
  {
  }
}

=== FILE: messages.dfy ===
/** What the monitor hands to the MQTT client: messages with a topic, a payload, the QoS and
    retain options exactly as the configuration gives them, and the log of what was sent. */
module Messages {
  import opened Dicts
  import opened Values
  import opened Collector

  /** What the host-description probes report (`get_manufacturer`, `check_model_name`, `get_os`). */
  datatype HostInfo = HostInfo(manufacturer: string, model: string, os: string)

  /** The `device` object of a Home Assistant discovery descriptor. */
  datatype Device = Device(identifiers: seq<string>, manufacturer: string, model: string, name: string, swVersion: string)

  /** A Home Assistant discovery descriptor, its fields in the order of the JSON object. */
  datatype Descriptor = Descriptor(stateTopic: string, icon: string, name: string, uniqueId: string, unit: string, device: Device)

  /** A message body, before the MQTT client encodes it to bytes. */
  datatype Payload =
    | Plain(text: string)               // a literal string ("online", a CSV line, "" for an unknown metric)
    | Metric(reading: Reading)          // one probe value, published as it is
    | SnapshotJson(data: Snapshot)      // `json.dumps(data)` of a whole snapshot
    | DescriptorJson(descriptor: Descriptor)  // `json.dumps` of a discovery descriptor

  /** One `client.publish(topic, payload, qos=..., retain=...)`; QoS and retain are passed on unchecked. */
  datatype Message = Message(topic: string, payload: Payload, qos: Value, retain: Value)

  /** The messages one operation sent, in order, and the exception that ended it, if any. */
  datatype Trace = Trace(sent: seq<Message>, error: Option<Error>)

  /** An operation that raised `e` before sending anything. */
  function Abort(e: Error): (t: Trace)
    ensures t.sent == [] && t.error == Some(e)
  {
    Trace([], Some(e))
  }

  /** `m` sent, then what `t` did. */
  function Prepend(m: Message, t: Trace): (r: Trace)
    ensures r.sent == [m] + t.sent && r.error == t.error
  {
    Trace([m] + t.sent, t.error)
  }

  /** `first`, then `rest` unless `first` raised. */
  function Then(first: Trace, rest: Trace): (r: Trace)
    ensures r.sent == if first.error.None? then first.sent + rest.sent else first.sent
    ensures r.error == if first.error.None? then rest.error else first.error
  {
    if first.error.None? then Trace(first.sent + rest.sent, rest.error) else first
  }

  /** Appending to a log in two steps is appending both at once. */
  lemma AppendInTurn(log: seq<Message>, first: seq<Message>, second: seq<Message>)
    ensures (log + first) + second == log + (first + second)
  {
  }

  /** One step of a loop whose whole run sent `done` and then what `Then(step, rest)` sends:
      a step that raises ends the run with its error, one that does not extends `done`. */
  lemma ThenStep(whole: Trace, done: seq<Message>, step: Trace, rest: Trace)
    requires whole.sent == done + Then(step, rest).sent && whole.error == Then(step, rest).error
    ensures if step.error.None? then whole.sent == (done + step.sent) + rest.sent && whole.error == rest.error
            else whole.sent == done + step.sent && whole.error == step.error
  {
    if step.error.None? {
      assert done + (step.sent + rest.sent) == (done + step.sent) + rest.sent;
    }
  }
}

=== FILE: monitor.dfy ===
/** The running monitor: the configuration and base topic fixed at start-up, the last will
    most recently passed to `will_set`, the timer of the next cycle, and the log of the messages it
    has sent, extended by the connect callback, each timer cycle and the exit handler. */
module Pimon {
  import opened Dicts
  import opened Values
  import opened Config
  import opened Collector
  import opened Messages
  import opened Publishing

  /** The `threading.Timer` a cycle starts: it runs the next cycle after `interval` seconds
      unless it is cancelled first. */
  datatype Timer = Timer(interval: Value, cancelled: bool)

  class Monitor {
    const config: Configuration
    const hostname: string
    const baseTopic: string
    const host: HostInfo
    /** The will most recently passed to `will_set`; the client sends it with its next CONNECT. */
    var will: Option<Message>
    /** The timer of the latest cycle (`timer_thread`), none before the first cycle. */
    var timer: Option<Timer>
    /** The messages published so far, oldest first. */
    var sent: seq<Message>

    /** Start-up: the configuration is loaded and the base topic derived once; nothing is sent yet. */
    constructor(document: Value, hostname: string, host: HostInfo)
      requires Startup(document, hostname).Success?
      ensures config == Startup(document, hostname).value.0
      ensures baseTopic == Startup(document, hostname).value.1
      ensures this.hostname == hostname && this.host == host
      ensures will == None && timer == None && sent == []
    {
      var started := Startup(document, hostname).value;
      config := started.0;
      this.hostname := hostname;
      baseTopic := started.1;
      this.host := host;
      will := None;
      timer := None;
      sent := [];
    }

    /** `mqtt_on_connect`: set the last will, announce "online", then the discovery messages. */
    method OnConnect() returns (err: Option<Error>)
      modifies this
      ensures var c := ConnectTrace(config, hostname, baseTopic, host);
              sent == old(sent) + c.trace.sent && err == c.trace.error &&
              will == (if c.will.Some? then c.will else old(will)) && timer == old(timer)
    {
      var q := Qos(config);
      if q.Failure? {
        return Some(q.error);
      }
      will := Some(Presence(baseTopic, "offline", q.value));
      var online := Presence(baseTopic, "online", q.value);
      ghost var t := Announcements(config, hostname, baseTopic, host);
      sent := sent + [online];
      err := AnnounceAll();
      AppendInTurn(old(sent), [online], t.sent);
    }

    /** The discovery condition of `mqtt_on_connect` and the `.items()` of the `messages` section. */
    method AnnounceAll() returns (err: Option<Error>)
      modifies this
      ensures var t := Announcements(config, hostname, baseTopic, host);
              sent == old(sent) + t.sent && err == t.error && will == old(will) && timer == old(timer)
    {
      var enabled := Lookup(config, "discovery_messages");
      if enabled.Failure? {
        return Some(enabled.error);
      }
      if !Truthy(enabled.value) {
        return None;
      }
      var grouped := Path(config, "bulk", "group_messages");
      if grouped.Failure? {
        return Some(grouped.error);
      }
      if Truthy(grouped.value) {
        return None;
      }
      var section := Lookup(config, "messages");
      if section.Failure? {
        return Some(section.error);
      }
      if !section.value.Dict? {
        return Some(AttributeError);
      }
      err := Announce(section.value.entries);
    }

    /** The discovery loop: each option of `messages` in turn. */
    method Announce(items: Assoc<Value>) returns (err: Option<Error>)
      modifies this
      ensures var t := DiscoveryTrace(LookupsOf(config), hostname, baseTopic, host, items);
              sent == old(sent) + t.sent && err == t.error && will == old(will) && timer == old(timer)
    {
      ghost var o := LookupsOf(config);
      ghost var done: seq<Message> := [];
      var i := 0;
      while i < |items|
        invariant 0 <= i <= |items|
        invariant will == old(will) && timer == old(timer)
        invariant sent == old(sent) + done
        invariant DiscoveryTrace(o, hostname, baseTopic, host, items).sent ==
                  done + DiscoveryTrace(o, hostname, baseTopic, host, items[i..]).sent
        invariant DiscoveryTrace(o, hostname, baseTopic, host, items).error ==
                  DiscoveryTrace(o, hostname, baseTopic, host, items[i..]).error
      {
        var item := items[i].0;
        var show := items[i].1;
        ghost var step := AnnounceOption(o, hostname, baseTopic, host, item, show);
        DiscoveryProgress(o, hostname, baseTopic, host, items, i, done);
        err := AnnounceItem(item, show);
        AppendInTurn(old(sent), done, step.sent);
        if err.Some? {
          return;
        }
        done := done + step.sent;
        i := i + 1;
      }
      assert items[i..] == [];
      assert done + [] == done;
      err := None;
    }

    /** One option of the discovery loop: a shown option is announced, then a pause. */
    method AnnounceItem(item: string, show: Value) returns (err: Option<Error>)
      modifies this
      ensures var t := AnnounceOption(LookupsOf(config), hostname, baseTopic, host, item, show);
              sent == old(sent) + t.sent && err == t.error && will == old(will) && timer == old(timer)
    {
      if !Truthy(show) {
        return None;
      }
      var q := Qos(config);
      if q.Failure? {
        return Some(q.error);
      }
      sent := sent + [DiscoveryMessage(hostname, baseTopic, host, item, q.value)];
      var pause := SleepTime(config);
      if pause.Failure? {
        return Some(pause.error);
      }
      err := None;
    }

    /** `publish_individual`: each metric of the snapshot in turn. */
    method PublishIndividual(data: Snapshot) returns (err: Option<Error>)
      modifies this
      ensures var t := IndividualTrace(LookupsOf(config), baseTopic, data);
              sent == old(sent) + t.sent && err == t.error && will == old(will) && timer == old(timer)
    {
      ghost var o := LookupsOf(config);
      ghost var done: seq<Message> := [];
      var i := 0;
      while i < |data|
        invariant 0 <= i <= |data|
        invariant will == old(will) && timer == old(timer)
        invariant sent == old(sent) + done
        invariant IndividualTrace(o, baseTopic, data).sent == done + IndividualTrace(o, baseTopic, data[i..]).sent
        invariant IndividualTrace(o, baseTopic, data).error == IndividualTrace(o, baseTopic, data[i..]).error
      {
        var name := data[i].0;
        var reading := data[i].1;
        ghost var step := PostMetric(o, baseTopic, name, reading);
        IndividualProgress(o, baseTopic, data, i, done);
        err := SendMetric(name, reading);
        AppendInTurn(old(sent), done, step.sent);
        if err.Some? {
          return;
        }
        done := done + step.sent;
        i := i + 1;
      }
      assert data[i..] == [];
      assert done + [] == done;
      err := None;
    }

    /** One iteration of `publish_individual`: the reading on `<base>/<name>`, then a pause. */
    method SendMetric(name: string, reading: Reading) returns (err: Option<Error>)
      modifies this
      ensures var t := PostMetric(LookupsOf(config), baseTopic, name, reading);
              sent == old(sent) + t.sent && err == t.error && will == old(will) && timer == old(timer)
    {
      var q := Qos(config);
      if q.Failure? {
        return Some(q.error);
      }
      var r := Retain(config);
      if r.Failure? {
        return Some(r.error);
      }
      sent := sent + [Message(baseTopic + "/" + name, Metric(reading), q.value, r.value)];
      var pause := SleepTime(config);
      if pause.Failure? {
        return Some(pause.error);
      }
      err := None;
    }

    /** `publish_bulk`: the whole snapshot in one message on `<base>/status`. */
    method PublishBulk(data: Snapshot) returns (err: Option<Error>)
      modifies this
      ensures var t := BulkTrace(config, baseTopic, data);
              sent == old(sent) + t.sent && err == t.error && will == old(will) && timer == old(timer)
    {
      var asJson := Path(config, "bulk", "format_as_json");
      if asJson.Failure? {
        return Some(asJson.error);
      }
      var payload := if Truthy(asJson.value) then SnapshotJson(data) else Plain(Csv(data));
      var q := Qos(config);
      if q.Failure? {
        return Some(q.error);
      }
      var r := Retain(config);
      if r.Failure? {
        return Some(r.error);
      }
      sent := sent + [Message(baseTopic + "/status", payload, q.value, r.value)];
      err := None;
    }

    /** `publish`: start the timer of the next cycle, collect, publish; a `KeyError` raised after
        the timer has started skips the rest of the cycle. */
    method Publish(probe: Probe) returns (outcome: Outcome)
      modifies this
      ensures var c := RunCycle(config, baseTopic, probe);
              sent == old(sent) + c.sent && outcome == c.outcome && will == old(will) &&
              timer == (if c.started.Some? then Some(Timer(c.started.value, false)) else old(timer))
    {
      var interval := Lookup(config, "loop_time");
      if interval.Failure? {
        return Aborted(interval.error);
      }
      timer := Some(Timer(interval.value, false));
      var err := PublishCollected(probe);
      outcome := Settle(err);
    }

    /** The guarded body of `publish`: the snapshot, then individual or bulk publishing. */
    method PublishCollected(probe: Probe) returns (err: Option<Error>)
      modifies this
      ensures var t := CycleTrace(config, baseTopic, probe);
              sent == old(sent) + t.sent && err == t.error && will == old(will) && timer == old(timer)
    {
      var data := Collect(config, probe);
      if data.Failure? {
        return Some(data.error);
      }
      var grouped := Path(config, "bulk", "group_messages");
      if grouped.Failure? {
        return Some(grouped.error);
      }
      if Truthy(grouped.value) {
        err := PublishBulk(data.value);
      } else {
        err := PublishIndividual(data.value);
      }
    }

    /** `on_exit`: announce "offline", then cancel the timer of the latest cycle, which does not
        exist before the first cycle. */
    method OnExit() returns (err: Option<Error>)
      modifies this
      ensures var t := ExitTrace(config, baseTopic);
              sent == old(sent) + t.sent && will == old(will) &&
              (t.error.Some? ==> err == t.error && timer == old(timer)) &&
              (t.error.None? && old(timer).None? ==> err == Some(NameError) && timer == None) &&
              (t.error.None? && old(timer).Some? ==> err == None && timer == Some(old(timer).value.(cancelled := true)))
    {
      var q := Qos(config);
      if q.Failure? {
        return Some(q.error);
      }
      sent := sent + [Presence(baseTopic, "offline", q.value)];
      if timer.None? {
        return Some(NameError);
      }
      timer := Some(timer.value.(cancelled := true));
      err := None;
    }
  }
}

=== FILE: publishing.dfy ===
/** What the monitor sends, as functions of the configuration: one cycle's metric messages
    (one per metric, or one bulk message), the presence and discovery messages on connecting,
    and the presence message on exit. */
module Publishing {
  import opened Dicts
  import opened Values
  import opened Text
  import opened Config
  import opened Collector
  import opened Messages
  import opened Discovery

  /** `[str(v) for v in data.values()]`. */
  function Texts(data: Snapshot): (ts: seq<string>)
    ensures |ts| == |data|
    ensures forall i :: 0 <= i < |data| ==> ts[i] == data[i].1.text
  {
    if data == [] then [] else [data[0].1.text] + Texts(data[1..])
  }

  /** The CSV line of a bulk message: the readings' texts joined by ", ". */
  function Csv(data: Snapshot): string
  {
    Join(Texts(data), ", ")
  }

  /** What the lookups `config["mqtt"]["qos"]`, `config["mqtt"]["retain"]` and the pause
      `time.sleep(config["sleep_time"])` give. The configuration never changes after start-up,
      so every iteration of a publishing loop gets the same three results. */
  datatype Lookups = Lookups(qos: Result<Value>, retain: Result<Value>, pause: Result<Value>)

  function LookupsOf(config: Configuration): Lookups
  {
    Lookups(Qos(config), Retain(config), SleepTime(config))
  }

  /** One iteration of `publish_individual`: look up QoS and retain, publish the reading on
      `<base>/<name>`, then pause. */
  function PostMetric(o: Lookups, baseTopic: string, name: string, reading: Reading): Trace
  {
    match o.qos
    case Failure(e) => Abort(e)
    case Success(q) =>
      match o.retain
      case Failure(e) => Abort(e)
      case Success(r) =>
        var m := Message(baseTopic + "/" + name, Metric(reading), q, r);
        match o.pause
        case Failure(e) => Trace([m], Some(e))
        case Success(_) => Trace([m], None)
  }

  /** `publish_individual(data)`: every metric in turn; the first exception ends it. */
  function IndividualTrace(o: Lookups, baseTopic: string, data: Snapshot): Trace
    decreases |data|
  {
    if data == [] then Trace([], None)
    else Then(PostMetric(o, baseTopic, data[0].0, data[0].1), IndividualTrace(o, baseTopic, data[1..]))
  }

  /** `publish_bulk(data)`: one message on `<base>/status` holding the whole snapshot, as JSON
      or as a CSV line of the values. */
  function BulkTrace(config: Configuration, baseTopic: string, data: Snapshot): Trace
  {
    match Path(config, "bulk", "format_as_json")
    case Failure(e) => Abort(e)
    case Success(asJson) =>
      var payload := if Truthy(asJson) then SnapshotJson(data) else Plain(Csv(data));
      match Qos(config)
      case Failure(e) => Abort(e)
      case Success(q) =>
        match Retain(config)
        case Failure(e) => Abort(e)
        case Success(r) => Trace([Message(baseTopic + "/status", payload, q, r)], None)
  }

  /** The names of the `messages` options whose value is truthy, in order. */
  function Shown(items: Assoc<Value>): (names: seq<string>)
    ensures |names| <= |items|
  {
    if items == [] then []
    else if Truthy(items[0].1) then [items[0].0] + Shown(items[1..])
    else Shown(items[1..])
  }

  /** The retained message announcing option `item` on its discovery topic. */
  function DiscoveryMessage(hostname: string, baseTopic: string, host: HostInfo, item: string, qos: Value): Message
  {
    Message(DiscoveryTopic(hostname, item), ConfigJson(item, hostname, baseTopic, host), qos, Bool(true))
  }

  /** One iteration of the discovery loop of `mqtt_on_connect`: a shown option is announced,
      retained, with `config_json` of its name, followed by a pause; any other is passed over. */
  function AnnounceOption(o: Lookups, hostname: string, baseTopic: string, host: HostInfo, item: string, show: Value): Trace
  {
    if !Truthy(show) then Trace([], None)
    else
      match o.qos
      case Failure(e) => Abort(e)
      case Success(q) =>
        var m := DiscoveryMessage(hostname, baseTopic, host, item, q);
        match o.pause
        case Failure(e) => Trace([m], Some(e))
        case Success(_) => Trace([m], None)
  }

  /** The discovery loop over the options of `messages`, in order. */
  function DiscoveryTrace(o: Lookups, hostname: string, baseTopic: string, host: HostInfo, items: Assoc<Value>): Trace
    decreases |items|
  {
    if items == [] then Trace([], None)
    else Then(AnnounceOption(o, hostname, baseTopic, host, items[0].0, items[0].1),
              DiscoveryTrace(o, hostname, baseTopic, host, items[1..]))
  }

  /** The discovery part of `mqtt_on_connect`: only when discovery is on and messages are not
      grouped, every option of `messages` is considered (`.items()` needs a mapping). */
  function Announcements(config: Configuration, hostname: string, baseTopic: string, host: HostInfo): Trace
  {
    match Lookup(config, "discovery_messages")
    case Failure(e) => Abort(e)
    case Success(enabled) =>
      if !Truthy(enabled) then Trace([], None)
      else match Path(config, "bulk", "group_messages")
        case Failure(e) => Abort(e)
        case Success(grouped) =>
          if Truthy(grouped) then Trace([], None)
          else match Lookup(config, "messages")
            case Failure(e) => Abort(e)
            case Success(section) =>
              if section.Dict? then DiscoveryTrace(LookupsOf(config), hostname, baseTopic, host, section.entries)
              else Abort(AttributeError)
  }

  /** What connecting leaves behind: the will passed to `will_set` (the client sends it with its
      next CONNECT), and the messages sent. */
  datatype Connection = Connection(will: Option<Message>, trace: Trace)

  /** The presence message on the base topic, always retained. */
  function Presence(baseTopic: string, status: string, qos: Value): Message
  {
    Message(baseTopic, Plain(status), qos, Bool(true))
  }

  /** `mqtt_on_connect`: register the "offline" last will, announce "online", then discovery. */
  function ConnectTrace(config: Configuration, hostname: string, baseTopic: string, host: HostInfo): Connection
  {
    match Qos(config)
    case Failure(e) => Connection(None, Abort(e))
    case Success(q) =>
      Connection(Some(Presence(baseTopic, "offline", q)),
                 Prepend(Presence(baseTopic, "online", q), Announcements(config, hostname, baseTopic, host)))
  }

  /** The publish of `on_exit`. */
  function ExitTrace(config: Configuration, baseTopic: string): Trace
  {
    match Qos(config)
    case Failure(e) => Abort(e)
    case Success(q) => Trace([Presence(baseTopic, "offline", q)], None)
  }

  /** How one cycle of `publish` ends: normally, skipped by the `except KeyError`, or with an
      exception that leaves `publish`. */
  datatype Outcome = Completed | Skipped | Aborted(error: Error)

  function Settle(error: Option<Error>): (o: Outcome)
    ensures o == Completed <==> error.None?
    ensures o == Skipped <==> error.Some? && error.value.KeyError?
    ensures o.Aborted? ==> error == Some(o.error)
  {
    match error
    case None => Completed
    case Some(KeyError(_)) => Skipped
    case Some(e) => Aborted(e)
  }

  /** The guarded body of `publish`: collect, then publish individually or in bulk. */
  function CycleTrace(config: Configuration, baseTopic: string, probe: Probe): Trace
  {
    match Collection(config, probe)
    case Failure(e) => Abort(e)
    case Success(data) =>
      match Path(config, "bulk", "group_messages")
      case Failure(e) => Abort(e)
      case Success(grouped) =>
        if Truthy(grouped) then BulkTrace(config, baseTopic, data) else IndividualTrace(LookupsOf(config), baseTopic, data)
  }

  /** Everything one call of `publish` does: the interval of the timer it started for the next
      cycle (none if `loop_time` could not be read), the messages it sent, and how it ended. */
  datatype Cycle = Cycle(started: Option<Value>, sent: seq<Message>, outcome: Outcome)

  /** `publish`: start the timer for the next cycle first, then run the guarded body. */
  function RunCycle(config: Configuration, baseTopic: string, probe: Probe): Cycle
  {
    match Lookup(config, "loop_time")
    case Failure(e) => Cycle(None, [], Aborted(e))
    case Success(interval) =>
      var t := CycleTrace(config, baseTopic, probe);
      Cycle(Some(interval), t.sent, Settle(t.error))
  }

  // ---------------------------------------------------------------------------------------
  // Individual publishing

  /** What individual publishing sends is a prefix of one message per metric, in snapshot
      order, each on `<base>/<metric name>` carrying that metric's reading. */
  lemma {:induction false} IndividualShape(o: Lookups, baseTopic: string, data: Snapshot)
    ensures var t := IndividualTrace(o, baseTopic, data);
            |t.sent| <= |data| &&
            (t.sent != [] ==> o.qos.Success? && o.retain.Success?) &&
            forall i :: 0 <= i < |t.sent| ==>
              t.sent[i] == Message(baseTopic + "/" + data[i].0, Metric(data[i].1), o.qos.value, o.retain.value)
    decreases |data|
  {
    if data != [] && o.qos.Success? && o.retain.Success? && o.pause.Success? {
      IndividualShape(o, baseTopic, data[1..]);
    }
  }

  /** Individual publishing fails exactly when there is something to publish and one of its
      three lookups fails, with the first failing lookup's error; a QoS or retain error stops
      it before the first message, a pause error right after it. When nothing fails, every
      metric is sent. */
  lemma {:induction false} IndividualOutcome(o: Lookups, baseTopic: string, data: Snapshot)
    ensures var t := IndividualTrace(o, baseTopic, data);
            var fine := o.qos.Success? && o.retain.Success? && o.pause.Success?;
            (t.error.None? <==> data == [] || fine) &&
            (t.error.None? ==> |t.sent| == |data|) &&
            (t.error.Some? ==>
               t.error.value == (if o.qos.Failure? then o.qos.error
                                 else if o.retain.Failure? then o.retain.error
                                 else o.pause.error) &&
               |t.sent| == (if o.qos.Success? && o.retain.Success? then 1 else 0))
    decreases |data|
  {
    if data != [] && o.qos.Success? && o.retain.Success? && o.pause.Success? {
      IndividualOutcome(o, baseTopic, data[1..]);
    }
  }

  /** How far `publish_individual` has got: the messages `done` sent for the metrics before
      index `i`, none of which raised, followed by what the remaining metrics do; one more
      metric either extends `done` or ends the loop with its error. */
  lemma IndividualProgress(o: Lookups, baseTopic: string, data: Snapshot, i: int, done: seq<Message>)
    requires 0 <= i < |data|
    requires IndividualTrace(o, baseTopic, data).sent == done + IndividualTrace(o, baseTopic, data[i..]).sent
    requires IndividualTrace(o, baseTopic, data).error == IndividualTrace(o, baseTopic, data[i..]).error
    ensures var step := PostMetric(o, baseTopic, data[i].0, data[i].1);
            var rest := IndividualTrace(o, baseTopic, data[i + 1..]);
            var whole := IndividualTrace(o, baseTopic, data);
            if step.error.None? then whole.sent == (done + step.sent) + rest.sent && whole.error == rest.error
            else whole.sent == done + step.sent && whole.error == step.error
  {
    var step := PostMetric(o, baseTopic, data[i].0, data[i].1);
    var rest := IndividualTrace(o, baseTopic, data[i + 1..]);
    assert data[i..][0] == data[i] && data[i..][1..] == data[i + 1..];
    assert IndividualTrace(o, baseTopic, data[i..]) == Then(step, rest);
    ThenStep(IndividualTrace(o, baseTopic, data), done, step, rest);
  }

  /** Metrics with distinct names are published on distinct topics. */
  lemma IndividualTopicsDistinct(o: Lookups, baseTopic: string, data: Snapshot)
    requires Unique(Keys(data))
    ensures var sent := IndividualTrace(o, baseTopic, data).sent;
            forall i, j :: 0 <= i < j < |sent| ==> sent[i].topic != sent[j].topic
  {
    var sent := IndividualTrace(o, baseTopic, data).sent;
    IndividualShape(o, baseTopic, data);
    forall i, j | 0 <= i < j < |sent|
      ensures sent[i].topic != sent[j].topic
    {
      var head := baseTopic + "/";
      assert Keys(data)[i] != Keys(data)[j];
      assert data[i].0 == (head + data[i].0)[|head|..];
      assert data[j].0 == (head + data[j].0)[|head|..];
    }
  }

  // ---------------------------------------------------------------------------------------
  // Bulk publishing

  /** Bulk publishing sends at most one message, always on `<base>/status`: the snapshot as
      JSON when `format_as_json` is truthy, otherwise its CSV line. It sends it exactly when
      the format, QoS and retain lookups succeed, and then raises nothing. */
  lemma BulkShape(config: Configuration, baseTopic: string, data: Snapshot)
    ensures var t := BulkTrace(config, baseTopic, data);
            var asJson := Path(config, "bulk", "format_as_json");
            (t.error.None? <==> asJson.Success? && Qos(config).Success? && Retain(config).Success?) &&
            |t.sent| == (if t.error.None? then 1 else 0) &&
            (t.error.None? ==>
               t.sent[0].topic == baseTopic + "/status" &&
               t.sent[0].qos == Qos(config).value && t.sent[0].retain == Retain(config).value &&
               (Truthy(asJson.value) ==> t.sent[0].payload == SnapshotJson(data)) &&
               (!Truthy(asJson.value) ==> t.sent[0].payload == Plain(Csv(data))))
  {
  }

  /** The CSV line of two readings. */
  lemma CsvExample()
    ensures Csv([("cpu_load", Reading("12.3")), ("memory", Reading("40"))]) == "12.3, 40"
  {
    var data := [("cpu_load", Reading("12.3")), ("memory", Reading("40"))];
    assert Texts(data) == ["12.3", "40"];
    assert ["12.3", "40"][1..] == ["40"];
  }

  /** A CSV line can be split back into the readings' texts when the snapshot is not empty and
      no text contains ", " itself. (An empty snapshot and a snapshot of one empty text give
      the same line "".) */
  lemma CsvRoundTrip(data: Snapshot)
    requires data != []
    requires forall i :: 0 <= i < |data| ==> !Contains(data[i].1.text, ", ")
    ensures Split(Csv(data), ", ") == Texts(data)
  {
    var ts := Texts(data);
    forall i | 0 <= i < |ts| - 1
      ensures SeparatorFirst(ts[i], ", ")
    {
      assert ts[i] == data[i].1.text;
      CommaSpaceFirst(ts[i]);
    }
    assert ts[|ts| - 1] == data[|data| - 1].1.text;
    JoinSplitRoundTrip(ts, ", ");
  }

  // ---------------------------------------------------------------------------------------
  // Discovery, connection and exit

  /** With QoS and pause lookups that succeed, an option is announced exactly when shown. */
  lemma AnnounceWhenFine(o: Lookups, hostname: string, baseTopic: string, host: HostInfo, item: string, show: Value)
    requires o.qos.Success? && o.pause.Success?
    ensures AnnounceOption(o, hostname, baseTopic, host, item, show) ==
            if Truthy(show) then Trace([DiscoveryMessage(hostname, baseTopic, host, item, o.qos.value)], None)
            else Trace([], None)
  {
  }

  /** When the QoS and pause lookups succeed, discovery sends exactly one retained message
      per shown option, in order, on that option's discovery topic, carrying `config_json`
      of the option's name. */
  lemma {:induction false} DiscoveryShape(o: Lookups, hostname: string, baseTopic: string, host: HostInfo, items: Assoc<Value>)
    requires o.qos.Success? && o.pause.Success?
    ensures var t := DiscoveryTrace(o, hostname, baseTopic, host, items);
            var names := Shown(items);
            t.error.None? && |t.sent| == |names| &&
            forall i :: 0 <= i < |names| ==>
              t.sent[i] == DiscoveryMessage(hostname, baseTopic, host, names[i], o.qos.value)
    decreases |items|
  {
    if items != [] {
      DiscoveryShape(o, hostname, baseTopic, host, items[1..]);
      var first := AnnounceOption(o, hostname, baseTopic, host, items[0].0, items[0].1);
      var rest := DiscoveryTrace(o, hostname, baseTopic, host, items[1..]);
      var t := DiscoveryTrace(o, hostname, baseTopic, host, items);
      assert t == Then(first, rest);
      AnnounceWhenFine(o, hostname, baseTopic, host, items[0].0, items[0].1);
      if Truthy(items[0].1) {
        var name := items[0].0;
        var m := DiscoveryMessage(hostname, baseTopic, host, name, o.qos.value);
        var names := Shown(items);
        var later := Shown(items[1..]);
        assert names == [name] + later;
        assert t.sent == [m] + rest.sent;
        assert |t.sent| == |names|;
        forall i | 0 <= i < |names|
          ensures t.sent[i] == DiscoveryMessage(hostname, baseTopic, host, names[i], o.qos.value)
        {
          if i > 0 {
            assert t.sent[i] == rest.sent[i - 1];
            assert names[i] == later[i - 1];
          }
        }
      } else {
        assert t.sent == rest.sent;
      }
    }
  }

  /** Whatever the lookups give, the discovery loop fails exactly when some option is shown
      and the QoS or the pause lookup fails. It then stops at the first shown option, having
      announced that option only if the QoS lookup succeeded, since the pause comes after the
      publish; otherwise it announces every shown option. */
  lemma {:induction false} DiscoveryOutcome(o: Lookups, hostname: string, baseTopic: string, host: HostInfo, items: Assoc<Value>)
    ensures var t := DiscoveryTrace(o, hostname, baseTopic, host, items);
            var names := Shown(items);
            (t.error.None? <==> names == [] || (o.qos.Success? && o.pause.Success?)) &&
            (t.error.None? ==> |t.sent| == |names|) &&
            (t.error.Some? ==>
               t.error.value == (if o.qos.Failure? then o.qos.error else o.pause.error) &&
               t.sent == (if o.qos.Success? then [DiscoveryMessage(hostname, baseTopic, host, names[0], o.qos.value)] else []))
    decreases |items|
  {
    if items != [] {
      DiscoveryOutcome(o, hostname, baseTopic, host, items[1..]);
      var first := AnnounceOption(o, hostname, baseTopic, host, items[0].0, items[0].1);
      var rest := DiscoveryTrace(o, hostname, baseTopic, host, items[1..]);
      assert DiscoveryTrace(o, hostname, baseTopic, host, items) == Then(first, rest);
    }
  }

  /** How far the discovery loop has got: the messages `done` sent for the options before
      index `i`, none of which raised, followed by what the remaining options do; one more
      option either extends `done` or ends the loop with its error. */
  lemma DiscoveryProgress(o: Lookups, hostname: string, baseTopic: string, host: HostInfo, items: Assoc<Value>, i: int, done: seq<Message>)
    requires 0 <= i < |items|
    requires DiscoveryTrace(o, hostname, baseTopic, host, items).sent == done + DiscoveryTrace(o, hostname, baseTopic, host, items[i..]).sent
    requires DiscoveryTrace(o, hostname, baseTopic, host, items).error == DiscoveryTrace(o, hostname, baseTopic, host, items[i..]).error
    ensures var step := AnnounceOption(o, hostname, baseTopic, host, items[i].0, items[i].1);
            var rest := DiscoveryTrace(o, hostname, baseTopic, host, items[i + 1..]);
            var whole := DiscoveryTrace(o, hostname, baseTopic, host, items);
            if step.error.None? then whole.sent == (done + step.sent) + rest.sent && whole.error == rest.error
            else whole.sent == done + step.sent && whole.error == step.error
  {
    var step := AnnounceOption(o, hostname, baseTopic, host, items[i].0, items[i].1);
    var rest := DiscoveryTrace(o, hostname, baseTopic, host, items[i + 1..]);
    assert items[i..][0] == items[i] && items[i..][1..] == items[i + 1..];
    assert DiscoveryTrace(o, hostname, baseTopic, host, items[i..]) == Then(step, rest);
    ThenStep(DiscoveryTrace(o, hostname, baseTopic, host, items), done, step, rest);
  }

  /** Connecting always first sets the "offline" last will and announces "online", both
      retained on the base topic with the configured QoS; without a QoS it sends nothing. */
  lemma ConnectPresence(config: Configuration, hostname: string, baseTopic: string, host: HostInfo)
    ensures var c := ConnectTrace(config, hostname, baseTopic, host);
            (c.will.Some? <==> Qos(config).Success?) &&
            (c.trace.sent != [] <==> Qos(config).Success?) &&
            (Qos(config).Success? ==>
               c.will.value.topic == baseTopic && c.will.value.payload == Plain("offline") &&
               c.will.value.qos == Qos(config).value && c.will.value.retain == Bool(true) &&
               c.trace.sent[0] == Message(baseTopic, Plain("online"), Qos(config).value, Bool(true)))
  {
  }

  /** With discovery off, or with messages grouped into bulk messages, connecting announces
      "online" and nothing else. */
  lemma ConnectWithoutDiscovery(config: Configuration, hostname: string, baseTopic: string, host: HostInfo)
    requires Qos(config).Success? && Lookup(config, "discovery_messages").Success?
    requires !Truthy(Lookup(config, "discovery_messages").value) ||
             (Path(config, "bulk", "group_messages").Success? && Truthy(Path(config, "bulk", "group_messages").value))
    ensures ConnectTrace(config, hostname, baseTopic, host).trace ==
            Trace([Presence(baseTopic, "online", Qos(config).value)], None)
  {
  }

  /** With discovery on and messages not grouped, connecting announces "online" and then
      exactly the discovery messages of the shown options. */
  lemma ConnectWithDiscovery(config: Configuration, hostname: string, baseTopic: string, host: HostInfo, section: Assoc<Value>)
    requires Qos(config).Success? && SleepTime(config).Success?
    requires Lookup(config, "discovery_messages").Success? && Truthy(Lookup(config, "discovery_messages").value)
    requires Path(config, "bulk", "group_messages").Success? && !Truthy(Path(config, "bulk", "group_messages").value)
    requires Lookup(config, "messages") == Success(Dict(section))
    ensures var t := ConnectTrace(config, hostname, baseTopic, host).trace;
            t.error.None? && |t.sent| == 1 + |Shown(section)| &&
            t.sent[0] == Presence(baseTopic, "online", Qos(config).value) &&
            t.sent[1..] == DiscoveryTrace(LookupsOf(config), hostname, baseTopic, host, section).sent
  {
    DiscoveryShape(LookupsOf(config), hostname, baseTopic, host, section);
  }

  /** A clean exit publishes exactly the will that connecting passed to `will_set`, and raises
      where connecting could not set one. */
  lemma ExitSendsWill(config: Configuration, hostname: string, baseTopic: string, host: HostInfo)
    ensures var will := ConnectTrace(config, hostname, baseTopic, host).will;
            var t := ExitTrace(config, baseTopic);
            (t.error.None? <==> will.Some?) &&
            (will.Some? ==> t.sent == [will.value]) &&
            (will.None? ==> t.sent == [])
  {
  }

  // ---------------------------------------------------------------------------------------
  // One cycle

  /** A loaded configuration always has `loop_time`: every cycle starts the timer for the next
      one before anything else, so an exception inside a cycle never stops the schedule. */
  lemma CycleReschedules(document: Value, baseTopic: string, probe: Probe)
    requires LoadConfig(document).Success?
    ensures var config := LoadConfig(document).value;
            Lookup(config, "loop_time").Success? &&
            RunCycle(config, baseTopic, probe).started == Some(Lookup(config, "loop_time").value)
  {
    DefaultKeys();
    LoadConfigHasDefaults(document, "loop_time");
  }

  /** When the collection fails, nothing is published: the cycle only started the timer. */
  lemma CollectionFailureSendsNothing(config: Configuration, baseTopic: string, probe: Probe)
    requires Lookup(config, "loop_time").Success? && Collection(config, probe).Failure?
    ensures RunCycle(config, baseTopic, probe) ==
            Cycle(Some(Lookup(config, "loop_time").value), [], Settle(Some(Collection(config, probe).error)))
  {
  }

  /** When `sleep_time` is present, a cycle body that raises `KeyError` sent nothing: the
      only lookup made after a message is the pause, and that one cannot raise `KeyError`. */
  lemma KeyErrorBeforeSending(config: Configuration, baseTopic: string, probe: Probe)
    requires Lookup(config, "sleep_time").Success?
    ensures var t := CycleTrace(config, baseTopic, probe);
            t.error.Some? && t.error.value.KeyError? ==> t.sent == []
  {
    var t := CycleTrace(config, baseTopic, probe);
    var collected := Collection(config, probe);
    if collected.Success? && Path(config, "bulk", "group_messages").Success? {
      if Truthy(Path(config, "bulk", "group_messages").value) {
        assert t == BulkTrace(config, baseTopic, collected.value);
      } else {
        assert t == IndividualTrace(LookupsOf(config), baseTopic, collected.value);
        IndividualOutcome(LookupsOf(config), baseTopic, collected.value);
      }
    }
  }

  /** For a loaded configuration, a skipped cycle published nothing: every lookup that can
      raise `KeyError` happens before the first message of the cycle is sent. */
  lemma SkippedSendsNothing(document: Value, baseTopic: string, probe: Probe)
    requires LoadConfig(document).Success?
    ensures var c := RunCycle(LoadConfig(document).value, baseTopic, probe);
            c.outcome == Skipped ==> c.sent == []
  {
    DefaultKeys();
    LoadConfigHasDefaults(document, "loop_time");
    LoadConfigHasDefaults(document, "sleep_time");
    KeyErrorBeforeSending(LoadConfig(document).value, baseTopic, probe);
  }

  /** A cycle that completes without grouping has started the timer and then published
      every collected metric individually (one message each, as `IndividualShape` states). */
  lemma CompletedIndividualCycle(config: Configuration, baseTopic: string, probe: Probe)
    requires Path(config, "bulk", "group_messages").Success? && !Truthy(Path(config, "bulk", "group_messages").value)
    ensures RunCycle(config, baseTopic, probe).outcome == Completed ==>
              Collection(config, probe).Success? && Lookup(config, "loop_time").Success? &&
              var t := IndividualTrace(LookupsOf(config), baseTopic, Collection(config, probe).value);
              var c := RunCycle(config, baseTopic, probe);
              t.error.None? && |t.sent| == |Collection(config, probe).value| &&
              c.started == Some(Lookup(config, "loop_time").value) && c.sent == t.sent
  {
    if Collection(config, probe).Success? {
      IndividualOutcome(LookupsOf(config), baseTopic, Collection(config, probe).value);
    }
  }

  /** A cycle that completes with messages grouped started the timer with `loop_time` and sent
      exactly the one bulk message of the snapshot, on `<base>/status`. */
  lemma CompletedBulkCycle(config: Configuration, baseTopic: string, probe: Probe)
    requires Path(config, "bulk", "group_messages").Success? && Truthy(Path(config, "bulk", "group_messages").value)
    ensures RunCycle(config, baseTopic, probe).outcome == Completed ==>
              Collection(config, probe).Success? && Lookup(config, "loop_time").Success? &&
              var c := RunCycle(config, baseTopic, probe);
              c.started == Some(Lookup(config, "loop_time").value) &&
              c.sent == BulkTrace(config, baseTopic, Collection(config, probe).value).sent &&
              |c.sent| == 1 && c.sent[0].topic == baseTopic + "/status"
  {
    if Collection(config, probe).Success? {
      BulkShape(config, baseTopic, Collection(config, probe).value);
    }
  }
}

=== FILE: text.dfy ===
/** Python's `str.replace`, `str.split` and `str.join` on a non-empty separator,
    as the monitor uses them for its topic prefix and its CSV payload. */
module Text {

  /** `pat` occurs in `s` at index `i`. */
  predicate OccursAt(s: string, pat: string, i: nat)
  {
    i + |pat| <= |s| && s[i..i + |pat|] == pat
  }

  ghost predicate Contains(s: string, pat: string)
  {
    exists i: nat :: OccursAt(s, pat, i)
  }

  /** `s.replace(pat, rep)`: every occurrence of `pat`, found left to right without
      overlapping, is replaced by `rep`. */
  function ReplaceAll(s: string, pat: string, rep: string): string
    requires pat != ""
    decreases |s|
  {
    if |s| < |pat| then s
    else if s[..|pat|] == pat then rep + ReplaceAll(s[|pat|..], pat, rep)
    else [s[0]] + ReplaceAll(s[1..], pat, rep)
  }

  /** `s.split(pat)`: the pieces between the occurrences `ReplaceAll` would replace. */
  function Split(s: string, pat: string): (parts: seq<string>)
    requires pat != ""
    ensures |parts| >= 1
    decreases |s|
  {
    if |s| < |pat| then [s]
    else if s[..|pat|] == pat then [""] + Split(s[|pat|..], pat)
    else
      var rest := Split(s[1..], pat);
      [[s[0]] + rest[0]] + rest[1..]
  }

  /** `sep.join(parts)`. */
  function Join(parts: seq<string>, sep: string): string
  {
    if parts == [] then ""
    else if |parts| == 1 then parts[0]
    else parts[0] + sep + Join(parts[1..], sep)
  }

  lemma JoinConsHead(c: char, parts: seq<string>, sep: string)
    requires |parts| >= 1
    ensures Join([[c] + parts[0]] + parts[1..], sep) == [c] + Join(parts, sep)
  {
    var ps := [[c] + parts[0]] + parts[1..];
    assert ps[1..] == parts[1..];
  }

  /** Replacing is splitting at the occurrences and joining with the replacement. */
  lemma {:induction false} ReplaceIsSplitJoin(s: string, pat: string, rep: string)
    requires pat != ""
    ensures ReplaceAll(s, pat, rep) == Join(Split(s, pat), rep)
    decreases |s|
  {
    if |s| < |pat| {
    } else if s[..|pat|] == pat {
      ReplaceIsSplitJoin(s[|pat|..], pat, rep);
      var rest := Split(s[|pat|..], pat);
      assert ([""] + rest)[1..] == rest;
    } else {
      ReplaceIsSplitJoin(s[1..], pat, rep);
      JoinConsHead(s[0], Split(s[1..], pat), rep);
    }
  }

  /** Replacing a token by itself changes nothing. */
  lemma {:induction false} ReplaceBySelf(s: string, pat: string)
    requires pat != ""
    ensures ReplaceAll(s, pat, pat) == s
    decreases |s|
  {
    if |s| < |pat| {
    } else if s[..|pat|] == pat {
      ReplaceBySelf(s[|pat|..], pat);
      assert s == s[..|pat|] + s[|pat|..];
    } else {
      ReplaceBySelf(s[1..], pat);
      assert s == [s[0]] + s[1..];
    }
  }

  /** Joining the pieces of a split with the separator gives back the string. */
  lemma SplitJoinRoundTrip(s: string, pat: string)
    requires pat != ""
    ensures Join(Split(s, pat), pat) == s
  {
    ReplaceIsSplitJoin(s, pat, pat);
    ReplaceBySelf(s, pat);
  }

  /** A string without the token comes back unchanged. */
  lemma {:induction false} ReplaceWithoutToken(s: string, pat: string, rep: string)
    requires pat != ""
    requires !Contains(s, pat)
    ensures ReplaceAll(s, pat, rep) == s
    decreases |s|
  {
    if |s| >= |pat| {
      assert !OccursAt(s, pat, 0);
      assert s[..|pat|] == s[0..0 + |pat|];
      assert !Contains(s[1..], pat) by {
        forall i: nat | OccursAt(s[1..], pat, i)
          ensures OccursAt(s, pat, i + 1)
        {
          assert s[1..][i..i + |pat|] == s[i + 1..i + 1 + |pat|];
        }
      }
      ReplaceWithoutToken(s[1..], pat, rep);
      assert s == [s[0]] + s[1..];
    }
  }

  /** `sep` first occurs in `v + sep` at the separator itself. */
  ghost predicate SeparatorFirst(v: string, sep: string)
  {
    forall i: nat :: i < |v| ==> !OccursAt(v + sep, sep, i)
  }

  /** Dropping the first character of a piece keeps the separator from being found early. */
  lemma SeparatorFirstTail(v: string, sep: string)
    requires v != []
    requires SeparatorFirst(v, sep)
    ensures SeparatorFirst(v[1..], sep)
  {
    forall i: nat | i < |v[1..]|
      ensures !OccursAt(v[1..] + sep, sep, i)
    {
      assert !OccursAt(v + sep, sep, i + 1);
      assert (v[1..] + sep)[i..] == (v + sep)[i + 1..];
    }
  }

  /** Splitting a piece, a separator and a tail recovers the piece, when the separator
      cannot be found earlier. */
  lemma {:induction false} SplitAfterPiece(v: string, sep: string, tail: string)
    requires sep != ""
    requires SeparatorFirst(v, sep)
    ensures Split(v + sep + tail, sep) == [v] + Split(tail, sep)
    decreases |v|
  {
    var s := v + sep + tail;
    if v == [] {
      assert s[..|sep|] == sep && s[|sep|..] == tail;
    } else {
      assert s[..|sep|] == (v + sep)[0..0 + |sep|];
      assert !OccursAt(v + sep, sep, 0);
      SeparatorFirstTail(v, sep);
      SplitAfterPiece(v[1..], sep, tail);
      assert s[1..] == v[1..] + sep + tail;
      assert [v[0]] + v[1..] == v;
    }
  }

  /** Splitting a join gives back the pieces when none of them lets the separator be found early. */
  lemma {:induction false} JoinSplitRoundTrip(parts: seq<string>, sep: string)
    requires sep != ""
    requires |parts| >= 1
    requires forall i :: 0 <= i < |parts| - 1 ==> SeparatorFirst(parts[i], sep)
    requires !Contains(parts[|parts| - 1], sep)
    ensures Split(Join(parts, sep), sep) == parts
    decreases |parts|
  {
    if |parts| == 1 {
      SplitNoToken(parts[0], sep);
    } else {
      JoinSplitRoundTrip(parts[1..], sep);
      SplitAfterPiece(parts[0], sep, Join(parts[1..], sep));
      assert parts == [parts[0]] + parts[1..];
    }
  }

  /** A string without the separator splits into itself alone. */
  lemma {:induction false} SplitNoToken(s: string, pat: string)
    requires pat != ""
    requires !Contains(s, pat)
    ensures Split(s, pat) == [s]
    decreases |s|
  {
    if |s| >= |pat| {
      assert !OccursAt(s, pat, 0);
      assert s[..|pat|] == s[0..0 + |pat|];
      assert !Contains(s[1..], pat) by {
        forall i: nat | OccursAt(s[1..], pat, i)
          ensures OccursAt(s, pat, i + 1)
        {
          assert s[1..][i..i + |pat|] == s[i + 1..i + 1 + |pat|];
        }
      }
      SplitNoToken(s[1..], pat);
      assert s == [s[0]] + s[1..];
    }
  }

  /** With the separator ", " (a comma, then a space), a piece without ", " cannot
      hide an earlier occurrence: its last character would have to be a comma followed
      by the separator's comma, not by a space. */
  lemma CommaSpaceFirst(v: string)
    requires !Contains(v, ", ")
    ensures SeparatorFirst(v, ", ")
  {
    var sep := ", ";
    forall i: nat | i < |v|
      ensures !OccursAt(v + sep, sep, i)
    {
      if i + 2 <= |v| {
        assert (v + sep)[i..i + 2] == v[i..i + 2];
        assert !OccursAt(v, sep, i);
      } else {
        assert (v + sep)[i + 1] == ',';
      }
    }
  }
}

=== FILE: values.dfy ===
/** The configuration values a YAML document can give the monitor, the Python errors the
    monitor's lookups can raise, and the few Python built-ins it applies to those values. */
module Values {
  import opened Dicts

  /** A loaded YAML value. Lists hold strings (disk paths, device names). */
  datatype Value =
    | Null
    | Bool(b: bool)
    | Int(i: int)
    | Float(r: real)
    | Str(s: string)
    | List(items: seq<string>)
    | Dict(entries: Assoc<Value>)

  /** The exceptions raised by the modelled code. */
  datatype Error =
    | KeyError(key: string)  // a missing dict key
    | TypeError              // subscripting, sizing or sleeping on a value of the wrong type
    | AttributeError         // `.replace` or `.items()` on a value that has no such method
    | ValueError             // a negative sleep length
    | OverflowError          // a sleep length too large for CPython's nanosecond clock
    | ProbeRaised            // a metric probe raised (its own exception, never a KeyError)
    | NameError              // a global read before any assignment (`timer_thread` before the first cycle)

  datatype Result<+T> = Success(value: T) | Failure(error: Error) {
    predicate IsFailure() { Failure? }

    function PropagateFailure<U>(): Result<U>
      requires Failure?
    {
      Failure(error)
    }

    function Extract(): T
      requires Success?
    {
      value
    }
  }

  /** Python's truth value of `v` (`if v:`). */
  predicate Truthy(v: Value)
  {
    match v
    case Null => false
    case Bool(b) => b
    case Int(i) => i != 0
    case Float(r) => r != 0.0
    case Str(s) => s != ""
    case List(items) => items != []
    case Dict(entries) => entries != []
  }

  /** `v[k]` for a string key: a dict looks the key up, anything else is not subscriptable by it. */
  function Index(v: Value, k: string): (r: Result<Value>)
    ensures r.Success? <==> v.Dict? && k in Keys(v.entries)
    ensures r.Success? ==> (k, r.value) in v.entries
    ensures r.Failure? ==> r.error == if v.Dict? then KeyError(k) else TypeError
  {
    match v
    case Dict(entries) =>
      (match Get(entries, k)
       case Some(x) => Success(x)
       case None => Failure(KeyError(k)))
    case _ => Failure(TypeError)
  }

  /** The items of `for item in v`, when `len(v)` is defined: a list's elements, a string's
      characters, a dict's keys. Every other value has no `len` and raises. */
  function Iterate(v: Value): (r: Result<seq<string>>)
    ensures r.Success? <==> v.List? || v.Str? || v.Dict?
    ensures r.Success? && v.List? ==> r.value == v.items
    ensures r.Success? && v.Dict? ==> r.value == Keys(v.entries)
    ensures r.Success? && v.Str? ==> |r.value| == |v.s| && forall i :: 0 <= i < |v.s| ==> r.value[i] == [v.s[i]]
    ensures r.Success? ==> (r.value == [] <==> !Truthy(v))
  {
    match v
    case List(items) => Success(items)
    case Str(s) => Success(seq(|s|, i requires 0 <= i < |s| => [s[i]]))
    case Dict(entries) => Success(Keys(entries))
    case _ => Failure(TypeError)
  }

  /** The largest whole number of seconds whose count of nanoseconds fits a signed 64-bit
      integer: (2^63 - 1) div 10^9. */
  const MaxSleepSeconds: int := 9_223_372_036

  /** CPython's `time.sleep` first converts its argument to a signed 64-bit count of
      nanoseconds, rounding away from zero; this holds of the numbers that conversion accepts (a bool
      counts as 0 or 1). */
  predicate FitsNanoseconds(v: Value)
  {
    match v
    case Bool(_) => true
    case Int(i) => -MaxSleepSeconds <= i <= MaxSleepSeconds
    case Float(r) => -9_223_372_036_854_775_808.0 <= r * 1_000_000_000.0 <= 9_223_372_036_854_775_807.0
    case _ => false
  }

  /** The error `time.sleep(v)` raises, if any: `TypeError` for a non-number, `OverflowError`
      for a number the nanosecond conversion rejects, and only then `ValueError` for a
      negative length. */
  function SleepError(v: Value): (r: Option<Error>)
    ensures r == Some(TypeError) <==> !(v.Bool? || v.Int? || v.Float?)
    ensures r == Some(OverflowError) <==> (v.Int? || v.Float?) && !FitsNanoseconds(v)
    ensures r == Some(ValueError) <==> FitsNanoseconds(v) && ((v.Int? && v.i < 0) || (v.Float? && v.r < 0.0))
    ensures r.None? || r == Some(TypeError) || r == Some(OverflowError) || r == Some(ValueError)
  {
    match v
    case Bool(_) => None
    case Int(i) =>
      if !FitsNanoseconds(v) then Some(OverflowError)
      else if i < 0 then Some(ValueError)
      else None
    case Float(r) =>
      if !FitsNanoseconds(v) then Some(OverflowError)
      else if r < 0.0 then Some(ValueError)
      else None
    case _ => Some(TypeError)
  }

  /** A sleep length of 10^20 seconds is a non-negative number that `time.sleep` still rejects. */
  lemma HugeSleepOverflows()
    ensures SleepError(Int(100_000_000_000_000_000_000)) == Some(OverflowError)
    ensures SleepError(Int(MaxSleepSeconds)).None?
    ensures SleepError(Float(0.5)).None?
  {
  }
}
